=== FILE: README.md ===
# Searn sequence labelling, modelled in Dafny

This project models the core of `vowpalwabbit/sequence.cc`. That file is the Searn reduction of sequence labelling
to cost-sensitive multiclass learning. For each labelled sequence it does the following:

- It picks a behaviour policy per position, mixing the frozen learned policies with the oracle.
- At every position it branches once per label.
- It rolls every branch forward under the behaviour policies, charging one unit of example weight per wrong label.
- It simulates branches whose recent history agrees only once.
- It turns the branches' losses into a cost vector, with the smallest loss subtracted.
- It emits exactly one cost-sensitive training example per position, with the realised history window in a reserved
  namespace and the features moved into the weight region of the current policy.

The modules follow the file's sections:

- `Base`: an option type, the unsigned-integer constants, and the warnings the source logs.
- `History`: the fixed-length window of recent labels (`append_history`, `clear_history`, `last_prediction`).
- `Policy`: `random_policy`, with the random draw replaced by a rank input.
- `RolloutCache`: the rollout candidates (`history_item`), their comparator, and sorting and duplicate marking.
- `Features`: injecting and stripping the history block, the per-policy weight offset, and the training call.
- `Reader`: `safe_get_example`, covering the ring limit, pass changes that advance the policy, and label clamping.
- `Trainer`: `process_next_example_sequence` for a training sequence, covering the behaviour pass, horizon, rollout,
  cost vector and emission.

The learner is a parameter, a total function from (position, history window, policy) to a label. The oracle policy
(-1) answers with the truth. Training calls are recorded as emitted examples; the learner itself does not change.

Several source behaviours are modelled as written:

- **Candidate seeds.** Every candidate starts from an all-zero window and then asserts its own label (lines
  808-818). It does not branch from the running history. The rollout therefore reproduces the realised path only
  through the first step's match test (lines 853, 863, 871-873).
- **`append_history_item` takes its item by value (lines 298-309).** The shared window buffer advances, but the hash
  and `same` updates are lost. Hashes stay 0.
- **The comparator tests `a.hash < b.hash` twice (lines 318-321).** Its slot loop returns on its first iteration
  (lines 323-330), so with the hashes all 0 it orders by the most recent slot only.
  `RolloutCache.ComparatorInconsistentOnHashes` and `RolloutCache.ComparatorIgnoresOlderSlots` exhibit both facts.
  With a window of one slot the grouping is exact, and a step then gives every candidate what simulating it alone
  would (`Trainer.SingleSlotStepSimulatesEachAlone`). With two slots it is not: `Trainer.TwoSlotSharingDiffersFromAlone`
  shows a duplicate handed its leader's window instead of its own.
- **`last_new` is unsigned, so the test `last_new < 0` (line 848) never fires.** The model proves instead that a
  duplicate always has an earlier fresh candidate to copy from. The first candidate is never marked (line 343), so the
  fresh index carried over from an earlier position is never read (`Trainer.UpdateItemsFromStart`).
- **The behaviour pass predicts under the behaviour draw (lines 769-786).** The oracle draw replaces the policy only
  after the prediction is made, so `Trainer.BehaviourPass` predicts every position with a learned policy. The
  training pass overwrites these predictions at lines 801, 872 and 898. After a rolled-out position whose realised
  prediction p is a valid class, the candidate branched on p is the one on the realised path. The next position then
  takes its policy's answer on that candidate's window, which is all zeros ending in p (`Trainer.RealisedAfterRollout`).
  That window equals the realised window only when the window has one slot (`Trainer.OneSlotRecoveryIsFresh`). When p
  is not a valid class, no candidate matches and the next position keeps its behaviour-pass prediction, repaired if
  its own rollout runs.
- **Labels are clamped as written (lines 669-676).** `Reader.SafeGetExample` rewrites every label above k, the test
  sentinel included (first row of "## Findings").
- **`sequence_gamma` is an unsigned integer holding 1 (line 71).** The option meant to set it writes `sequence_beta`
  instead (line 569), so the discount multiplies by 1 at every step (`Trainer.SequenceGamma`).
- **Copying a duplicate's history shares the leader's buffer (line 855).** It is modelled as a value copy. This is sound because
  candidates sharing a buffer always compare equal, so they sit in the same group. Only the group's first candidate
  appends to its buffer, and it does so before the others copy it.

## Model

| member | source | states |
|---|---|---|
| History.Clear | vowpalwabbit/sequence.cc:359-363 | the window keeps its length and every slot is 0 |
| History.Append | vowpalwabbit/sequence.cc:290-296 | the window keeps its length, every slot moves one place older, and the newest slot holds the new label |
| History.AppendAllWindow | vowpalwabbit/sequence.cc:290-296 | appending a sequence of labels leaves the last window-length entries of the old window followed by the new labels |
| History.AppendAllForgets | vowpalwabbit/sequence.cc:290-296 | after at least window-length appends, the window is exactly the most recent labels and the starting window is forgotten |
| History.AppendExample | vowpalwabbit/sequence.cc:290-296 | a concrete window of 3: appending 5 to zeros gives [0,0,5], and then appending 7 gives [0,5,7] |
| History.LastPrediction | vowpalwabbit/sequence.cc:311-314 | the returned label is the newest slot: the window is its older slots followed by it |
| Policy.RankedOptions | vowpalwabbit/sequence.cc:120-148 | the number of options is current policy + allow-optimal + allow-current |
| Policy.RandomPolicy | vowpalwabbit/sequence.cc:110-149 | the oracle (-1) is returned only when allowed; otherwise the result is a policy in 0..current; a result equal to the current policy while the current policy is not allowed happens only when no option is valid, which is the "defaulting to current" error path |
| Policy.RandomPolicyFollowsRanking | vowpalwabbit/sequence.cc:112-148 | the chosen policy is the option at the drawn rank in the order current, current-1, ..., 0, oracle; with beta >= 1 or a single option the rank is 0 |
| Policy.SampledRankMapping | vowpalwabbit/sequence.cc:140-148 | with several options, rank r is the oracle exactly when the oracle is allowed and r is the last rank, and otherwise policy current - r, minus 1 when the current policy is not allowed |
| Policy.DeterministicChoice | vowpalwabbit/sequence.cc:112-118 | with beta >= 1 the choice is: the current policy if allowed, else the previous one if any, else the oracle if allowed, else the current policy |
| Policy.FirstEpochPicksOracle | vowpalwabbit/sequence.cc:141-142 | before any policy is frozen, a draw that allows the oracle always returns it |
| RolloutCache.AppendHistoryItem | vowpalwabbit/sequence.cc:298-309 | only the window advances (last slot = label, the rest shift); hash, mark, loss and label are unchanged |
| RolloutCache.OrderHistoryItem | vowpalwabbit/sequence.cc:316-332 | the result is in -1..1; a smaller hash gives -1; otherwise the most recent slots alone decide |
| RolloutCache.ComparatorInconsistentOnHashes | vowpalwabbit/sequence.cc:318-321 | two items with different hashes each compare as less than the other |
| RolloutCache.ComparatorIgnoresOlderSlots | vowpalwabbit/sequence.cc:323-330 | windows differing in an older slot compare equal |
| RolloutCache.InsertPermutes | vowpalwabbit/sequence.cc:342 | one insertion step of the sort adds the new candidate and keeps every other one: a multiset permutation, and nothing else appears |
| RolloutCache.InsertLabels | vowpalwabbit/sequence.cc:342 | one insertion step carries the inserted candidate's original label with it and keeps every other label |
| RolloutCache.InsertSorted | vowpalwabbit/sequence.cc:342 | inserting into a sequence ordered by key keeps it ordered by key |
| RolloutCache.SortItems | vowpalwabbit/sequence.cc:342 | the result is ordered by key and is a permutation of the input, items and labels alike |
| RolloutCache.MarkEquality | vowpalwabbit/sequence.cc:343-347 | only the marks change; an item is marked exactly when it is not first and has its predecessor's key |
| RolloutCache.SortItemsUnmark | vowpalwabbit/sequence.cc:342 | sorting moves whole candidates: with the marks set aside, the result is a multiset permutation of the candidates, windows, hashes, losses and labels together |
| RolloutCache.SortAndMarkEquality | vowpalwabbit/sequence.cc:340-348 | the result is sorted and, marks aside, a permutation of the candidates with their windows and losses (and so of their labels); item 0 is unmarked and item i is marked exactly when the comparator finds it equal to item i-1 |
| RolloutCache.SortAndMarkMember | vowpalwabbit/sequence.cc:340-347 | every candidate after sorting and marking is, marks aside, one of the candidates before |
| RolloutCache.AllEqual | vowpalwabbit/sequence.cc:350-356 | it holds for at most one candidate, and otherwise exactly when every candidate after the first is marked |
| RolloutCache.AllEqualIffOneKey | vowpalwabbit/sequence.cc:350-356 | after sorting and marking, every candidate is a duplicate exactly when all candidates share their most recent label; this always holds for at most one candidate |
| Features.SlotFeaturesSize | vowpalwabbit/sequence.cc:421-458 | the history block has one feature per slot, plus one pair per slot after the first when bigrams are on |
| Features.SlotFeaturesContents | vowpalwabbit/sequence.cc:421-458 | the slot block of `Features.SlotFeatures` holds the feature of every slot up to the order and, with bigrams, the pair of every slot after the first with the next more recent one, and nothing else |
| Features.CrossFeaturesSize | vowpalwabbit/sequence.cc:477-517 | each base feature contributes one block of cross features of the same size |
| Features.CrossFeaturesContents | vowpalwabbit/sequence.cc:465-518 | the cross features of `Features.CrossFeatures` are exactly the cross feature of every slot up to the feature order with every base feature |
| Features.CrossNamespacesSize | vowpalwabbit/sequence.cc:462-520 | the cross block size is the number of base features in the listed namespaces times the block size |
| Features.CrossNamespacesContents | vowpalwabbit/sequence.cc:462-520 | the cross block of `Features.CrossNamespaces` is exactly the cross feature of every slot up to the feature order with every base feature of every listed namespace |
| Features.HistoryBlockSize | vowpalwabbit/sequence.cc:417-520 | the injected block has the history features plus the cross features when a feature order is set, and every injected feature has value 1 |
| Features.HistoryBlockContents | vowpalwabbit/sequence.cc:421-520 | the block of `Features.HistoryBlock` holds the unigram of every slot up to the history order, the bigram of every such slot after the first when bigrams are on, and the cross feature of every slot up to the feature order with every feature of every namespace in use, and nothing else |
| Features.CrossBlockAsWrittenSize | vowpalwabbit/sequence.cc:477-517 | as written, with feature bigrams on, every slot contributes a cross feature and a cross bigram, so a base feature's block has 2 * order features |
| Features.CrossBlockAsWrittenContents | vowpalwabbit/sequence.cc:479-517 | as written, every slot from 1 to the feature order contributes its cross feature and its cross bigram, the bigram of slot 1 paired with the word one past the window, and the block holds nothing else |
| Features.CrossPairAsWrittenReadsPastWindow | vowpalwabbit/sequence.cc:499-500 | as written the guard admits t = 1, whose bigram pairs the newest slot with the word one past the window, and the block has 2 * order features; under the t > 1 guard every read is inside and the block has 2 * order - 1 |
| Features.AddHistory | vowpalwabbit/sequence.cc:417-526 | the reserved namespace is appended to the namespace list and holds its old features followed by the history block; it grows by the injected count; the feature count and both sums of squares grow by the namespace's size; no other namespace changes |
| Features.RemoveHistory | vowpalwabbit/sequence.cc:384-414 | with no namespaces, or with the reserved one not last, a warning is logged and the example is unchanged; otherwise the namespace is emptied and dropped, and the count and sums are reduced by what it held |
| Features.AddRemoveRoundTrip | vowpalwabbit/sequence.cc:384-526 | stripping right after injecting gives back the clean example exactly, with no warning |
| Features.PolicyOffset | vowpalwabbit/sequence.cc:530 | policy 0, an empty weight table or a zero stride gives offset 0 |
| Features.AddPolicyOffset | vowpalwabbit/sequence.cc:528-532 | every feature of every namespace keeps its value and moves up by the policy's offset; namespace list and count are unchanged |
| Features.RemovePolicyOffset | vowpalwabbit/sequence.cc:534-538 | every feature of every namespace keeps its value and moves down by the policy's offset; namespace list and count are unchanged |
| Features.PolicyOffsetMonotone | vowpalwabbit/sequence.cc:528-538 | a later policy never gets a smaller weight offset |
| Features.Shift | vowpalwabbit/sequence.cc:531 | every feature index in every namespace moves by the same amount; namespace lists, counts and sums are unchanged |
| Features.PolicyOffsetRoundTrip | vowpalwabbit/sequence.cc:528-538 | removing the offset of a policy after adding it restores the example |
| Features.GenerateTrainingExample | vowpalwabbit/sequence.cc:589-603 | the learner sees the reserved namespace listed last; every other namespace holds its features moved up by the policy's offset, and the reserved one holds its old features followed by the history block, moved up by the same offset |
| Features.TrainingCallRestoresExample | vowpalwabbit/sequence.cc:589-603 | after the training call a clean example is exactly as before |
| Reader.AdvancePolicy | vowpalwabbit/sequence.cc:657-666 | the policy stays within budget and rises by at most one; the pass counter resets when it rises and stays below passes-per-policy; the too-many-policies error is logged exactly when the counter is due and the next policy would pass the budget, and it is the only message; nothing else changes |
| Reader.AdvanceManyClosedForm | vowpalwabbit/sequence.cc:657-666 | after m pass changes the counter is (c + m) mod p and the policy is min(budget, policy + (c + m) div p) |
| Reader.ClampLabelAsWritten | vowpalwabbit/sequence.cc:669-676 | every label above k becomes k and sets the warned flag; the overage warning is logged exactly when the label is above k and no warning was logged before, so at most once per run, and it names k and the label |
| Reader.ClampLabel | vowpalwabbit/sequence.cc:669-676 | labels above k become k, except the test sentinel, which is kept with no warning; for a real label above k the warning is logged exactly when none was logged before, and it names k and the label |
| Reader.ClampAsWrittenErasesTestExamples | vowpalwabbit/sequence.cc:377-380 | as written, a test example's sentinel label is rewritten to k, so the test check can never succeed; the corrected clamp keeps it |
| Reader.SafeGetExample | vowpalwabbit/sequence.cc:634-679 | at the ring limit nothing is read, the null flag stays clear and the ring-size warning is the only message; at stream end the null flag is set; otherwise the example is returned with its label clamped as the source writes it (every label above k, the test sentinel included, becomes k) and the read count raised; the end-of-data warning is logged exactly when an example of a new pass arrives while data was expected to continue; the overage flag ends set exactly when it was set or the delivered label is above k, and the overage warning is logged exactly when the delivered label is above k and the flag was clear; the policy moves only on a pass change, where the policy, the pass counter and the too-many-policies error are exactly those of `Reader.AdvancePolicy` |
| Reader.NewPass | vowpalwabbit/sequence.cc:649-666 | the last pass becomes the new one; the end-of-data warning is logged exactly when data was expected to continue past a pass boundary, which clears the expectation; policy, counter and the too-many-policies error are those of `Reader.AdvancePolicy`, and these two are the only messages; the read count, last id and clamp flags are untouched |
| Reader.PassChange | vowpalwabbit/sequence.cc:649-667 | a new pass number starts a pass exactly as `Reader.NewPass` does, and the same number leaves the state alone with no message; the read count, last id and clamp flags are untouched, and the policy stays within budget |
| Reader.AcceptExample | vowpalwabbit/sequence.cc:646-677 | a delivered example raises the read count, records its id and pass, and comes back clamped as the source writes it; the end-of-data warning is logged exactly on a pass change while data was expected to continue; on the same pass the policy and counter stay, on a new one they are those of `Reader.AdvancePolicy`; the overage flag and warning follow the label exactly as in `Reader.ClampLabelAsWritten` |
| Trainer.Predict | vowpalwabbit/sequence.cc:605-624 | the optimal policy (-1) answers with the truth without consulting the learner; every other policy answers with the learner's prediction on the given window |
| Trainer.AllOptimal | vowpalwabbit/sequence.cc:792-796 | it holds exactly when every policy in the sequence is negative, that is, no position uses a learned policy |
| Trainer.BehaviourPass | vowpalwabbit/sequence.cc:766-787 | position t's policy is the oracle exactly when its oracle draw lands on the oracle, and its behaviour draw otherwise (`Trainer.DrawnPolicy`); hence the oracle or a frozen policy below the current one, and the oracle everywhere before any policy is frozen; every prediction, oracle positions included, is the learner's answer under the behaviour draw on the window of the predictions before it, that is, the reference run `Trainer.LearnerRun` |
| Trainer.BehaviourDraw | vowpalwabbit/sequence.cc:769 | before any policy is frozen the behaviour draw is policy 0; afterwards it is a frozen policy below the current one, never the oracle |
| Trainer.DrawnPolicy | vowpalwabbit/sequence.cc:769-786 | a position's policy is the oracle or a frozen policy below the current one, the oracle before any policy is frozen, and otherwise the behaviour draw; once a policy is frozen, with beta < 1 it is the oracle exactly when the oracle draw lands on the last rank (the oracle's, line 785), and with beta >= 1 never |
| Trainer.BehaviourStep | vowpalwabbit/sequence.cc:769-786 | one position of the behaviour pass ends with the drawn policy, and its prediction is the learner's answer under the behaviour draw on the current window |
| Trainer.DrawnPoliciesAt | vowpalwabbit/sequence.cc:767-787 | the policies drawn for the first n positions are, position by position, that position's drawn policy |
| Trainer.LearnerRunPrefix | vowpalwabbit/sequence.cc:767-787 | a longer left-to-right learner run starts with the shorter one |
| Trainer.LearnerRunWindowed | vowpalwabbit/sequence.cc:776-778 | every prediction of a learner run is the learner's answer at its position, under its policy, on the window of the run's own earlier predictions |
| Trainer.RolloutHorizon | vowpalwabbit/sequence.cc:821-832 | the horizon lies between t and min(n, t+1+rollout); with all positions on the oracle it is t+1; otherwise the last rolled-out position uses a learned policy and every trimmed position uses the oracle |
| Trainer.SeedCandidates | vowpalwabbit/sequence.cc:806-818 | one unmarked candidate per label, with labels 0..k-1 in order; candidate i holds the all-zero window ending in i+1, a zero hash, and loss 0 for the true label or else the example weight |
| Trainer.Seed | vowpalwabbit/sequence.cc:808-818 | the candidate for label i has the window length, the all-zero window ending in i+1 (so its newest label is i+1), a zero hash, no mark, its own label, and loss 0 when i+1 is the truth, else the example weight |
| Trainer.SeedsAllEqualIffOneClass | vowpalwabbit/sequence.cc:339-356 | after sorting and marking, the seeded candidates are all duplicates exactly when there is at most one class, so a rollout from them is entered exactly when its first step lies before the horizon and there are two classes or more |
| Trainer.SortedSeeds | vowpalwabbit/sequence.cc:339-347 | sorting and marking the seeded candidates keeps one candidate per label, marks none of them, and leaves each with the all-zero window ending in its own label plus one |
| Trainer.StepAt | vowpalwabbit/sequence.cc:844-873 | only candidate i changes, and it advances (a duplicate from the last fresh candidate); a fresh candidate becomes the last fresh index; when candidate i is on the realised path at the first step, its new newest label becomes the prediction for t+1, and otherwise that prediction is kept; the step stays ready for i+1 |
| Trainer.AdvanceCandidate | vowpalwabbit/sequence.cc:846-869 | a duplicate takes its source's window and hash; a fresh candidate appends its policy's prediction on its own window; either way it ends unmarked with its label and is charged one discounted weight exactly when its new newest label is not the truth |
| Trainer.UpdateItems | vowpalwabbit/sequence.cc:844-874 | the shapes and label order are kept; already processed candidates are unchanged; the last fresh index stays in range |
| Trainer.UpdateItemsCharges | vowpalwabbit/sequence.cc:857-869 | after a step every candidate is unmarked and was charged one discounted weight exactly when the label it now ends in, its own prediction or the one it copied, is not the truth |
| Trainer.UpdateItemsAdvancesFresh | vowpalwabbit/sequence.cc:861-866 | after a step every unmarked candidate holds its window with its own policy's prediction appended |
| Trainer.UpdateItemsSharesDuplicates | vowpalwabbit/sequence.cc:846-857 | after a step a candidate marked as a duplicate holds exactly its predecessor's new window |
| Trainer.UpdateItemsKeepsPrediction | vowpalwabbit/sequence.cc:853-873 | with no candidate on the realised path the prediction for t+1 is kept |
| Trainer.UpdateItemsRecovers | vowpalwabbit/sequence.cc:853-873 | when candidates lie on the realised path, the prediction for t+1 is the new newest label of the last of them |
| Trainer.UpdateItemsMatchesAlone | vowpalwabbit/sequence.cc:844-870 | when every marked candidate holds its predecessor's window, a step gives every candidate the window and loss of simulating it alone |
| Trainer.SingleSlotMarksExact | vowpalwabbit/sequence.cc:316-348 | with a window of one slot, every candidate marked after sorting holds its predecessor's window |
| Trainer.SingleSlotStepSimulatesEachAlone | vowpalwabbit/sequence.cc:838-870 | with a window of one slot, one step over the sorted and marked cache gives every candidate the window and loss of simulating it alone, so sharing changes nothing |
| Trainer.TwoSlotSharingDiffersFromAlone | vowpalwabbit/sequence.cc:323-330 | with two slots, candidates [1,3] and [2,3] are grouped, and under a policy that reads the older slot the duplicate ends with [3,1] where on its own it would reach [3,2] |
| Trainer.Rollout | vowpalwabbit/sequence.cc:834-875 | the candidates keep their shape and their label multiset; a horizon already reached changes nothing; the rollout stops at the step it reached, which is never before its first step and never past the horizon, and lies before the horizon only when sorting left every candidate a duplicate (lines 840-841); it stops at its first step exactly when the horizon is reached or the sorted cache is all duplicates; it counts as entered exactly when it already was or a step is simulated; a rollout that simulates nothing only reorders the candidates, windows and losses included, and keeps the prediction for t+1 and the last fresh index; after the first step (t2 > t+1) the prediction for t+1 never changes |
| Trainer.RolloutFirstStep | vowpalwabbit/sequence.cc:836-873 | when the first step (t2 = t+1) is simulated, the prediction for t+1 a rollout leaves behind is the one that step recovered: later steps never match (line 853 and 863 test t2 == t+1) |
| Trainer.UpdateItemsFromStart | vowpalwabbit/sequence.cc:343-348 | the first candidate of a step is never marked (line 343), so a step over the whole cache does not depend on the last fresh index carried in |
| Trainer.SeededMatch | vowpalwabbit/sequence.cc:853-863 | among the seeded candidates, the one branched on a valid proposal ends in that proposal, so it is on the realised path at the first step, and no later candidate is |
| Trainer.RecoveredFromSeeds | vowpalwabbit/sequence.cc:844-873 | a first step over seeded candidates recovers, for a valid proposal p, the policy's answer on the all-zero window ending in p, and otherwise keeps the prediction passed in |
| Trainer.FirstStepRecovers | vowpalwabbit/sequence.cc:808-873 | `Trainer.FirstStep`, the first rollout step on the freshly seeded, sorted and marked candidates, leaves as the prediction for t+1 the next policy's answer on the all-zero window ending in the proposal when the proposal is a valid class, and otherwise the prediction passed in |
| Trainer.MinLoss | vowpalwabbit/sequence.cc:884-887 | the value is at most every candidate's loss and equals one of them |
| Trainer.SmallestLoss | vowpalwabbit/sequence.cc:884-887 | the scan returns the smallest candidate loss |
| Trainer.LabelPermFacts | vowpalwabbit/sequence.cc:889-890 | when the candidates' labels are a permutation of 0..k-1, no two candidates share a label and every label belongs to a candidate, so the write loop sets every cost entry exactly once |
| Trainer.BuildCostVector | vowpalwabbit/sequence.cc:884-890 | entry original_label of each candidate is its loss minus the smallest loss; every entry is >= 0, and one is 0 |
| Trainer.SeedCosts | vowpalwabbit/sequence.cc:814 | with no rollout and a valid truth, the costs are 0 for the true class and the example weight for every other class |
| Trainer.Repaired | vowpalwabbit/sequence.cc:877-880 | the repaired prediction is a valid class: the prediction itself when it is one, and class 1 otherwise |
| Trainer.RollOutPosition | vowpalwabbit/sequence.cc:806-875 | the candidates' labels stay a permutation of 0..k-1; the horizon lies between t and min(n, t+1+rollout), is t+1 when every policy is the oracle, and otherwise ends on a learned policy with every trimmed position on the oracle; the rollout reaches the horizon unless the cache became all duplicates first; it is entered exactly when the horizon lies past t+1 and there are at least two classes; once entered the prediction for t+1 is the one `Trainer.FirstStep` recovered, and otherwise it and the last fresh index are unchanged; with every policy the oracle nothing is rolled out and the seeded candidates are kept |
| Trainer.PositionCosts | vowpalwabbit/sequence.cc:883-890 | the cost vector is valid; the entry of each candidate's original label is its loss minus the smallest loss; it equals the one-step costs when every policy is the oracle and the candidates are the seeded ones |
| Trainer.TrainPosition | vowpalwabbit/sequence.cc:806-890 | the cost vector is valid, and equals the one-step costs when every policy is the oracle; only the predictions at t and t+1 change; after a rollout, which needs two classes or more, the prediction at t is repaired (kept when a valid class, else 1) and the prediction at t+1 is the one `Trainer.FirstStep` recovered; without one both are unchanged, as is the last fresh index; nothing is rolled out when every policy is the oracle |
| Trainer.SettlePosition | vowpalwabbit/sequence.cc:806-898 | after position t only the predictions at t and t+1 may change; t's is settled by its rollout's repair; after a rollout, which needs two classes or more, t+1 holds what `Trainer.FirstStep` recovered from its old value, and without one it holds its behaviour policy's prediction on the window ending with t's realised prediction |
| Trainer.RealisedStep | vowpalwabbit/sequence.cc:892-898 | finishing position t with the earlier predictions kept and t's settled extends the realised-path property to t+1 |
| Trainer.ProposalStep | vowpalwabbit/sequence.cc:871-898 | the value left at t+1 after position t, recovered by a rollout or predicted afresh at line 898, is position t+1's proposal under `Trainer.Proposal` |
| Trainer.EmittedStep | vowpalwabbit/sequence.cc:892 | emitting t's example with the window of the kept earlier predictions extends the emitted-examples property to t+1 |
| Trainer.WindowStep | vowpalwabbit/sequence.cc:894-895 | appending t's realised prediction to the window of the predictions before t gives the window of the predictions up to t |
| Trainer.EmitExamples | vowpalwabbit/sequence.cc:799-899 | one example per position, in order, each shown the window of the realised predictions before it, with a valid cost vector; the realised predictions satisfy `Trainer.RealisedUpTo`: each position proposes either what the previous position's first rollout step recovered from the behaviour pass's prediction, or, without a rollout there, the line-801/898 prediction on the realised prefix, and each is settled by its own rollout's repair; a position is rolled out only with two classes or more, and never when every policy is the oracle |
| Trainer.TrainSequence | vowpalwabbit/sequence.cc:764-899 | exactly n examples for the current policy, in position order, each with a non-negative cost vector that has a zero entry and the realised history window before it; every policy is its position's drawn policy; the behaviour pass is the reference learner run; the realised predictions satisfy `Trainer.RealisedUpTo` over that run, so a position after a rollout holds what the first rollout step recovered; before any policy is frozen the costs are the one-step costs and the realised predictions are exactly the truth |
| Trainer.RealisedAfterRollout | vowpalwabbit/sequence.cc:853-873 | over a whole sequence, a position after a rolled-out one proposes the next policy's answer on the all-zero window ending in the previous proposal when that proposal is a valid class, and otherwise the behaviour pass's prediction |
| Trainer.OneSlotRecoveryIsFresh | vowpalwabbit/sequence.cc:853-898 | with a one-slot window and a valid previous proposal, that recovered proposal is exactly the prediction made afresh on the realised window |
| Trainer.OracleRealisesTruth | vowpalwabbit/sequence.cc:799-899 | with every position on the oracle and nothing rolled out, the realised predictions are exactly the truth |

## Left out

- Test mode (`run_test`, lines 681-718) is out of scope. So are the reading loop (lines 725-762), the newline test,
  skipping of mixed train/test sequences, and the driver (lines 913-935). The model starts from one labelled sequence.
- Loss statistics, progress output and debug printing (lines 205-282, 772-790) have no effect on what is learned.
- Option parsing (lines 548-586) is left out. Its settings are inputs here: class count, window length, orders, bigram
  switches, rollout length and beta. The parser also sets the history bigram switch for the feature bigram option
  (lines 555-556).
- Memory allocation and release, and audit strings, are left out.
- Hashing is abstract: feature indices come from a parameter `hash` applied to what each feature combines, so the
  polynomial constants and the parse mask are not modelled. `OAA::update_indicies` is not part of this model; the
  offset is taken to be added to every feature index.
- `drand48` is replaced by a rank input. The geometric weights of the ranks (line 135) are not modelled.
- Floating point is not modelled: weights, losses, costs and the sums of squared feature values are reals.
- Features.AddRemoveRoundTrip: the sums of squares come back exactly only over reals. The source adds the namespace's
  sum at line 524 and subtracts it at line 397 in single precision, where (x + c) - c need not equal x.
- Integer widths are modelled only where they are written out: labels are not truncated to 32 bits when appended
  (line 290), and other size_t arithmetic is unbounded. The width is explicit in three places: the unsigned
  `last_new` (above), the 32-bit test sentinel compared with a size_t label at line 669 (`Base.TestLabel`, first
  finding), and the unsigned negation of the offset at line 537 (below).
- The feature-bigram switch is taken to be off (`Features.ValidEncoder`): its option sets the history-bigram switch
  instead (lines 555-556), and nothing else sets it. The cross block it would enable is modelled as written for the
  second finding (`Features.CrossBlockAsWritten`).
- The learner is a fixed function, so training does not change later predictions within a sequence. The learner
  is not part of this model.
- Restoring each example's original label (lines 901-902) is left out.
- `OPTIMIZE_SHARED_HISTORIES` is fixed on, as in the source.
- The window length and the class count must be at least 1 (`Trainer.ValidConfig`). With 0 the source reads outside
  its arrays.
- RolloutCache.SortItems: `qsort` may order equal keys in any way; the model uses a stable sort. The marks depend only
  on keys, so they hold for any order of equal keys. The order does decide which candidate leads each group. With a
  window of two slots or more, the duplicates take the leader's window (`Trainer.TwoSlotSharingDiffersFromAlone`). The
  modelled losses are therefore those of the stable order.
- Policy.RandomPolicy: the draw is an input rank, so the contract does not state the sampling distribution.
- Reader.SafeGetExample: the model returns the warnings as values rather than printing them.
- Features.PolicyOffsetRoundTrip: it holds for the unbounded index arithmetic of the model. The source's unsigned
  negation of the amount relies on wrap-around, which is not modelled.
- Features.RemovePolicyOffset: the amount is subtracted as a signed integer. The source adds its unsigned negation,
  which equals subtraction only modulo the word size.
- Trainer.UpdateItems: its own contract states shapes, labels and the processed prefix. What a step does from index i
  on is stated by the lemmas about it: `Trainer.UpdateItemsCharges`, `Trainer.UpdateItemsAdvancesFresh`,
  `Trainer.UpdateItemsSharesDuplicates`, `Trainer.UpdateItemsKeepsPrediction`, `Trainer.UpdateItemsRecovers` and `Trainer.UpdateItemsMatchesAlone`.
- Trainer.Rollout: the contract does not add up the charges over several steps. Each step's charges are stated by
  `Trainer.UpdateItemsCharges`, and losses are stated directly only for a rollout that simulates nothing.
- Trainer.TrainPosition: after a rollout, the cost vector is stated only as valid. `Trainer.PositionCosts` builds it
  with `Trainer.BuildCostVector` from the rolled-out candidates.
- Trainer.EmitExamples: a rolled-out position's cost vector is stated only as valid. Its value is stated for one
  position by `Trainer.PositionCosts`.
- Trainer.TrainSequence: a rolled-out position's cost vector is stated only as valid, as in `Trainer.EmitExamples`. The
  contract says a position was rolled out only with two classes or more. The exact condition, a horizon past t+1, is
  stated for one position by `Trainer.RollOutPosition`.
- The reset of `pred_seq[0]` inside the all-policies-optimal loop (line 795) is overwritten at line 801 before it is
  read, so it is left out.

## Findings

| source | as written | input that shows it | evidently intended | confidence | as-written member | corrected member |
|---|---|---|---|---|---|---|
| vowpalwabbit/sequence.cc:669-676 | every label above k is replaced by k, including the test sentinel 0xFFFFFFFF that `example_is_test` (lines 377-380) looks for | a test example (label 0xFFFFFFFF) with k = 5 is read as label 5, so it is trained on instead of being routed to test mode | leave the sentinel alone and clamp only real labels | medium, not executed | Reader.ClampLabelAsWritten (called by Reader.SafeGetExample, shown by Reader.ClampAsWrittenErasesTestExamples) | Reader.ClampLabel (keeps the sentinel, proved by Reader.ClampAsWrittenErasesTestExamples) |
| vowpalwabbit/sequence.cc:499-500 | the cross-bigram guard is `t > 0`, so at t = 1 it reads `h[history_length-t+1]`, one slot past the window | feature order 1 with feature bigrams on: each base feature gets 2 features, and the second pairs h[history_length-1] with h[history_length], one past the window | the guard `t > 1` used by the plain bigrams (line 440) | medium, not executed; the parser never turns the feature bigram switch on (lines 555-556) | Features.CrossBlockAsWritten (sized by Features.CrossBlockAsWrittenSize, shown by Features.CrossPairAsWrittenReadsPastWindow) | Features.SlotFeatures (guard t > 1), sized by Features.SlotFeaturesSize |

=== FILE: base.dfy ===
/** Shared vocabulary: an optional value and the diagnostics the trainer writes to the log. */
module Base {

  datatype Option<T> = None | Some(value: T)

  /** The largest `size_t`: what `(size_t)-1` evaluates to on a 64-bit build. */
  const SizeMax: nat := 0xFFFF_FFFF_FFFF_FFFF

  /** The `uint32_t` label value that marks a test (unlabelled) example. */
  const TestLabel: nat := 0xFFFF_FFFF

  /** Diagnostics the source writes to the error stream instead of failing. */
  datatype Warning =
    | RingSizeExceeded(lastId: nat)
    | MissingEmptyExample
    | TooManyPolicies
    | ClassOverage(classes: nat, found: nat)
    | NoNamespacesToRemove
    | HistoryNotLastNamespace

  function Min(a: int, b: int): int { if a < b then a else b }
}

=== FILE: features.dfy ===
/** The feature bookkeeping around each call of the learner: injecting the history block into
    a reserved namespace and stripping it again (`add_history_to_example`,
    `remove_history_from_example`), and moving every feature into the weight region of one
    policy (`add_policy_offset`, `remove_policy_offset`). */
module Features {
  import opened Base
  import opened History

  /** One feature: its value and its index into the weight table. */
  datatype Feature = Feature(x: real, weightIndex: int)

  /** What an injected feature combines: the recency offset `t`, the slot's label, the next more
      recent label for bigrams, and the base feature's index for cross features. How the source
      hashes these into a weight index is abstract (`hash` below). */
  datatype FeatureKey =
    | Unigram(t: nat, slot: nat)
    | Bigram(t: nat, slot: nat, next: nat)
    | Cross(t: nat, slot: nat, base: int)
    | CrossBigram(t: nat, slot: nat, next: nat, base: int)

  const NumNamespaces: nat := 256

  /** The parts of an example the history block touches: the namespaces in use, the features
      of each of the 256 namespaces, per-namespace and total sums of squared values, and the
      feature count. */
  datatype Example = Example(
    indices: seq<nat>,
    atomics: seq<seq<Feature>>,
    sumFeatSq: seq<real>,
    totalSumFeatSq: real,
    numFeatures: int)

  predicate WellFormed(ex: Example)
  {
    && |ex.atomics| == NumNamespaces
    && |ex.sumFeatSq| == NumNamespaces
    && forall i :: 0 <= i < |ex.indices| ==> ex.indices[i] < NumNamespaces
  }

  /** The encoder's settings: the window length (the larger of the two orders), how many recent
      slots give history features and cross features, the two bigram switches, and the
      reserved namespace. */
  datatype Encoder = Encoder(
    historyLength: nat,
    historyOrder: nat,
    featureOrder: nat,
    bigrams: bool,
    bigramFeatures: bool,
    namespace: nat)

  /** The orders fit in the window, and the feature-bigram switch is off: the option named
      for it sets the history-bigram switch instead (lines 555-556), so nothing turns it on. */
  predicate ValidEncoder(enc: Encoder)
  {
    && enc.historyOrder <= enc.historyLength
    && enc.featureOrder <= enc.historyLength
    && !enc.bigramFeatures
    && enc.namespace < NumNamespaces
  }

  /** Every feature has value 1, so each adds 1 to the sum of squares. */
  predicate UnitValued(fs: seq<Feature>)
  {
    forall i :: 0 <= i < |fs| ==> fs[i].x == 1.0
  }

  /** The history block is absent: the namespace is not in use and holds nothing. */
  predicate HistoryClean(enc: Encoder, ex: Example)
    requires WellFormed(ex) && enc.namespace < NumNamespaces
  {
    && enc.namespace !in ex.indices
    && ex.atomics[enc.namespace] == []
    && ex.sumFeatSq[enc.namespace] == 0.0
  }

  function SlotKey(h: History, t: nat, base: Option<int>): FeatureKey
    requires 1 <= t <= |h|
  {
    match base
    case None => Unigram(t, h[|h| - t])
    case Some(b) => Cross(t, h[|h| - t], b)
  }

  function PairKey(h: History, t: nat, base: Option<int>): FeatureKey
    requires 2 <= t <= |h|
  {
    match base
    case None => Bigram(t, h[|h| - t], h[|h| - t + 1])
    case Some(b) => CrossBigram(t, h[|h| - t], h[|h| - t + 1], b)
  }

  /** For t = `from` .. `order`: the feature of slot t, followed (when `bigram` and t > 1) by the
      pair of slot t with the next more recent slot. Used both for the plain history features
      (`base` = None) and for the features crossed with one base feature. Its contract states
      only that every feature has value 1; `SlotFeaturesContents` states what it holds. */
  function SlotFeatures(h: History, order: nat, bigram: bool, base: Option<int>,
                        hash: FeatureKey -> int, from: nat): (r: seq<Feature>)
    requires 1 <= from && order <= |h|
    ensures UnitValued(r)
    decreases order + 1 - from
  {
    if from > order then []
    else
      [Feature(1.0, hash(SlotKey(h, from, base)))]
      + (if from > 1 && bigram then [Feature(1.0, hash(PairKey(h, from, base)))] else [])
      + SlotFeatures(h, order, bigram, base, hash, from + 1)
  }

  /** The slot block holds, for every slot t from `from` to `order`, the feature of slot t and
      (with bigrams, for t > 1) its pair with the next more recent slot, and nothing else. */
  lemma {:induction false} SlotFeaturesContents(h: History, order: nat, bigram: bool, base: Option<int>,
                                                hash: FeatureKey -> int, from: nat)
    requires 1 <= from && order <= |h|
    ensures forall t :: from <= t <= order ==>
              Feature(1.0, hash(SlotKey(h, t, base))) in SlotFeatures(h, order, bigram, base, hash, from)
    ensures forall t :: bigram && from <= t <= order && 2 <= t ==>
              Feature(1.0, hash(PairKey(h, t, base))) in SlotFeatures(h, order, bigram, base, hash, from)
    ensures forall f :: f in SlotFeatures(h, order, bigram, base, hash, from) ==>
              exists t :: from <= t <= order
                          && (f == Feature(1.0, hash(SlotKey(h, t, base)))
                              || (bigram && 2 <= t && f == Feature(1.0, hash(PairKey(h, t, base)))))
    decreases order + 1 - from
  {
    if from <= order {
      SlotFeaturesContents(h, order, bigram, base, hash, from + 1);
      var head := [Feature(1.0, hash(SlotKey(h, from, base)))]
                  + (if from > 1 && bigram then [Feature(1.0, hash(PairKey(h, from, base)))] else []);
      var rest := SlotFeatures(h, order, bigram, base, hash, from + 1);
      assert SlotFeatures(h, order, bigram, base, hash, from) == head + rest;
      forall t | from <= t <= order
        ensures Feature(1.0, hash(SlotKey(h, t, base))) in head + rest
      {
        if t == from {
          assert (head + rest)[0] == Feature(1.0, hash(SlotKey(h, t, base)));
        } else {
          assert Feature(1.0, hash(SlotKey(h, t, base))) in rest;
        }
      }
      forall t | bigram && from <= t <= order && 2 <= t
        ensures Feature(1.0, hash(PairKey(h, t, base))) in head + rest
      {
        if t == from {
          assert (head + rest)[1] == Feature(1.0, hash(PairKey(h, t, base)));
        } else {
          assert Feature(1.0, hash(PairKey(h, t, base))) in rest;
        }
      }
      forall f | f in head + rest
        ensures exists t :: from <= t <= order
                            && (f == Feature(1.0, hash(SlotKey(h, t, base)))
                                || (bigram && 2 <= t && f == Feature(1.0, hash(PairKey(h, t, base)))))
      {
        if f !in rest {
          assert f in head;
          assert from <= from <= order;
        }
      }
    }
  }

  /** Number of features one slot block contributes: one per slot, plus one pair per slot
      after the first when bigrams are on. */
  function BlockSize(order: nat, bigram: bool): nat
  {
    order + (if bigram && order > 1 then order - 1 else 0)
  }

  lemma {:induction false} SlotFeaturesSize(h: History, order: nat, bigram: bool, base: Option<int>,
                                            hash: FeatureKey -> int, from: nat)
    requires 1 <= from <= order + 1 && order <= |h|
    ensures |SlotFeatures(h, order, bigram, base, hash, from)|
            == (order + 1 - from)
               + (if !bigram then 0 else if from >= 2 then order + 1 - from else if order >= 1 then order - 1 else 0)
    decreases order + 1 - from
  {
    if from <= order {
      SlotFeaturesSize(h, order, bigram, base, hash, from + 1);
    }
  }

  /** The guard the source puts on the cross-feature bigram (`t > 0`), and the slot that bigram
      then reads (`h[history_length-t+1]`). */
  predicate CrossPairGuardAsWritten(t: nat) { t > 0 }

  function PairSlot(length: nat, t: nat): int { length - t + 1 }

  /** The word the as-written cross bigram of slot t pairs it with: slot L-t+1 when it lies in
      the window, and `beyond` otherwise. */
  function PairedWord(h: History, t: nat, beyond: nat): nat
  {
    if 0 <= PairSlot(|h|, t) < |h| then h[PairSlot(|h|, t)] else beyond
  }

  /** The key of the as-written cross bigram of slot t. */
  function CrossPairKeyAsWritten(h: History, t: nat, base: int, beyond: nat): FeatureKey
    requires 1 <= t <= |h|
  {
    CrossBigram(t, h[|h| - t], PairedWord(h, t, beyond), base)
  }

  /** The cross block of one base feature as the source writes it with the feature-bigram
      switch on: for t = `from` .. `order`, the cross feature of slot t and, under the guard
      t > 0, its pair with slot L-t+1. For t = 1 that slot is one past the window; `beyond`
      stands for whatever the memory after the window holds. */
  function CrossBlockAsWritten(h: History, order: nat, base: int, hash: FeatureKey -> int,
                               from: nat, beyond: nat): (r: seq<Feature>)
    requires 1 <= from && order <= |h|
    ensures UnitValued(r)
    decreases order + 1 - from
  {
    if from > order then []
    else
      [Feature(1.0, hash(SlotKey(h, from, Some(base))))]
      + (if CrossPairGuardAsWritten(from)
         then [Feature(1.0, hash(CrossPairKeyAsWritten(h, from, base, beyond)))]
         else [])
      + CrossBlockAsWritten(h, order, base, hash, from + 1, beyond)
  }

  /** As written, every slot from `from` to `order` contributes its cross feature and its cross
      bigram, that of slot 1 included, and the block holds nothing else. */
  lemma {:induction false} CrossBlockAsWrittenContents(h: History, order: nat, base: int, hash: FeatureKey -> int,
                                                       from: nat, beyond: nat)
    requires 1 <= from && order <= |h|
    ensures forall t :: from <= t <= order ==>
              && Feature(1.0, hash(SlotKey(h, t, Some(base)))) in CrossBlockAsWritten(h, order, base, hash, from, beyond)
              && Feature(1.0, hash(CrossPairKeyAsWritten(h, t, base, beyond))) in CrossBlockAsWritten(h, order, base, hash, from, beyond)
    ensures forall f :: f in CrossBlockAsWritten(h, order, base, hash, from, beyond) ==>
              exists t :: from <= t <= order
                          && (f == Feature(1.0, hash(SlotKey(h, t, Some(base))))
                              || f == Feature(1.0, hash(CrossPairKeyAsWritten(h, t, base, beyond))))
    decreases order + 1 - from
  {
    if from <= order {
      CrossBlockAsWrittenContents(h, order, base, hash, from + 1, beyond);
      var head := [Feature(1.0, hash(SlotKey(h, from, Some(base)))),
                   Feature(1.0, hash(CrossPairKeyAsWritten(h, from, base, beyond)))];
      var rest := CrossBlockAsWritten(h, order, base, hash, from + 1, beyond);
      assert CrossBlockAsWritten(h, order, base, hash, from, beyond) == head + rest;
      forall t | from <= t <= order
        ensures && Feature(1.0, hash(SlotKey(h, t, Some(base)))) in head + rest
                && Feature(1.0, hash(CrossPairKeyAsWritten(h, t, base, beyond))) in head + rest
      {
        if t == from {
          assert (head + rest)[0] == Feature(1.0, hash(SlotKey(h, t, Some(base))));
          assert (head + rest)[1] == Feature(1.0, hash(CrossPairKeyAsWritten(h, t, base, beyond)));
        } else {
          assert Feature(1.0, hash(SlotKey(h, t, Some(base)))) in rest;
          assert Feature(1.0, hash(CrossPairKeyAsWritten(h, t, base, beyond))) in rest;
        }
      }
      forall f | f in head + rest
        ensures exists t :: from <= t <= order
                            && (f == Feature(1.0, hash(SlotKey(h, t, Some(base))))
                                || f == Feature(1.0, hash(CrossPairKeyAsWritten(h, t, base, beyond))))
      {
        if f !in rest {
          assert f in head;
          assert from <= from <= order;
        }
      }
    }
  }

  lemma {:induction false} CrossBlockAsWrittenSize(h: History, order: nat, base: int, hash: FeatureKey -> int,
                                                   from: nat, beyond: nat)
    requires 1 <= from <= order + 1 && order <= |h|
    ensures |CrossBlockAsWritten(h, order, base, hash, from, beyond)| == 2 * (order + 1 - from)
    decreases order + 1 - from
  {
    if from <= order {
      CrossBlockAsWrittenSize(h, order, base, hash, from + 1, beyond);
    }
  }

  /** As written, the first cross bigram (t = 1) passes the guard and pairs slot L-1 with the
      slot just past the end of the window, so the block depends on memory outside the window
      and has 2 * order features. Under the guard of the plain bigrams (t > 1), which
      `SlotFeatures` uses, every slot read lies inside the window and the block has one
      feature fewer. */
  lemma CrossPairAsWrittenReadsPastWindow(h: History, order: nat, base: int, hash: FeatureKey -> int, beyond: nat)
    requires 1 <= order <= |h|
    ensures CrossPairGuardAsWritten(1) && PairSlot(|h|, 1) == |h|
    ensures |CrossBlockAsWritten(h, order, base, hash, 1, beyond)| == 2 * order
    ensures CrossBlockAsWritten(h, order, base, hash, 1, beyond)[1]
            == Feature(1.0, hash(CrossBigram(1, h[|h| - 1], beyond, base)))
    ensures |SlotFeatures(h, order, true, Some(base), hash, 1)| == 2 * order - 1
  {
    CrossBlockAsWrittenSize(h, order, base, hash, 1, beyond);
    SlotFeaturesSize(h, order, true, Some(base), hash, 1);
  }

  /** Cross features of every base feature in `fs`, in order. */
  function CrossFeatures(enc: Encoder, h: History, hash: FeatureKey -> int, fs: seq<Feature>): (r: seq<Feature>)
    requires ValidEncoder(enc) && |h| == enc.historyLength
    ensures UnitValued(r)
    decreases |fs|
  {
    if |fs| == 0 then []
    else
      SlotFeatures(h, enc.featureOrder, enc.bigramFeatures, Some(fs[0].weightIndex), hash, 1)
      + CrossFeatures(enc, h, hash, fs[1..])
  }

  /** The cross features of `fs` are exactly the cross feature of every slot up to the feature
      order with every base feature of `fs`. */
  lemma {:induction false} CrossFeaturesContents(enc: Encoder, h: History, hash: FeatureKey -> int, fs: seq<Feature>)
    requires ValidEncoder(enc) && |h| == enc.historyLength
    ensures forall j, t :: 0 <= j < |fs| && 1 <= t <= enc.featureOrder ==>
              Feature(1.0, hash(SlotKey(h, t, Some(fs[j].weightIndex)))) in CrossFeatures(enc, h, hash, fs)
    ensures forall f :: f in CrossFeatures(enc, h, hash, fs) ==>
              exists j, t :: 0 <= j < |fs| && 1 <= t <= enc.featureOrder
                             && f == Feature(1.0, hash(SlotKey(h, t, Some(fs[j].weightIndex))))
    decreases |fs|
  {
    if |fs| > 0 {
      CrossFeaturesContents(enc, h, hash, fs[1..]);
      SlotFeaturesContents(h, enc.featureOrder, enc.bigramFeatures, Some(fs[0].weightIndex), hash, 1);
      var head := SlotFeatures(h, enc.featureOrder, enc.bigramFeatures, Some(fs[0].weightIndex), hash, 1);
      var rest := CrossFeatures(enc, h, hash, fs[1..]);
      assert CrossFeatures(enc, h, hash, fs) == head + rest;
      forall j, t | 0 <= j < |fs| && 1 <= t <= enc.featureOrder
        ensures Feature(1.0, hash(SlotKey(h, t, Some(fs[j].weightIndex)))) in head + rest
      {
        if j > 0 {
          assert fs[j] == fs[1..][j - 1];
        }
      }
      forall f | f in head + rest
        ensures exists j, t :: 0 <= j < |fs| && 1 <= t <= enc.featureOrder
                               && f == Feature(1.0, hash(SlotKey(h, t, Some(fs[j].weightIndex))))
      {
        if f in rest {
          var j, t :| 0 <= j < |fs[1..]| && 1 <= t <= enc.featureOrder
                      && f == Feature(1.0, hash(SlotKey(h, t, Some(fs[1..][j].weightIndex))));
          assert fs[1..][j] == fs[j + 1];
        } else {
          var t :| 1 <= t <= enc.featureOrder && f == Feature(1.0, hash(SlotKey(h, t, Some(fs[0].weightIndex))));
        }
      }
    }
  }

  /** Cross features over every namespace listed in `namespaces`. */
  function CrossNamespaces(enc: Encoder, ex: Example, h: History, hash: FeatureKey -> int,
                           namespaces: seq<nat>): (r: seq<Feature>)
    requires ValidEncoder(enc) && |h| == enc.historyLength && WellFormed(ex)
    requires forall i :: 0 <= i < |namespaces| ==> namespaces[i] < NumNamespaces
    ensures UnitValued(r)
    decreases |namespaces|
  {
    if |namespaces| == 0 then []
    else
      CrossFeatures(enc, h, hash, ex.atomics[namespaces[0]])
      + CrossNamespaces(enc, ex, h, hash, namespaces[1..])
  }

  /** The cross block of the listed namespaces is exactly the cross feature of every slot up to
      the feature order with every base feature of every listed namespace. */
  lemma {:induction false} CrossNamespacesContents(enc: Encoder, ex: Example, h: History, hash: FeatureKey -> int,
                                                   namespaces: seq<nat>)
    requires ValidEncoder(enc) && |h| == enc.historyLength && WellFormed(ex)
    requires forall i :: 0 <= i < |namespaces| ==> namespaces[i] < NumNamespaces
    ensures forall i, j, t :: 0 <= i < |namespaces| && 0 <= j < |ex.atomics[namespaces[i]]| && 1 <= t <= enc.featureOrder ==>
              Feature(1.0, hash(SlotKey(h, t, Some(ex.atomics[namespaces[i]][j].weightIndex))))
                in CrossNamespaces(enc, ex, h, hash, namespaces)
    ensures forall f :: f in CrossNamespaces(enc, ex, h, hash, namespaces) ==>
              exists i, j, t :: 0 <= i < |namespaces| && 0 <= j < |ex.atomics[namespaces[i]]| && 1 <= t <= enc.featureOrder
                                && f == Feature(1.0, hash(SlotKey(h, t, Some(ex.atomics[namespaces[i]][j].weightIndex))))
    decreases |namespaces|
  {
    if |namespaces| > 0 {
      var tail := namespaces[1..];
      CrossNamespacesContents(enc, ex, h, hash, tail);
      CrossFeaturesContents(enc, h, hash, ex.atomics[namespaces[0]]);
      var head := CrossFeatures(enc, h, hash, ex.atomics[namespaces[0]]);
      var rest := CrossNamespaces(enc, ex, h, hash, tail);
      assert CrossNamespaces(enc, ex, h, hash, namespaces) == head + rest;
      forall i, j, t | 0 <= i < |namespaces| && 0 <= j < |ex.atomics[namespaces[i]]| && 1 <= t <= enc.featureOrder
        ensures Feature(1.0, hash(SlotKey(h, t, Some(ex.atomics[namespaces[i]][j].weightIndex)))) in head + rest
      {
        if i > 0 {
          assert namespaces[i] == tail[i - 1];
        }
      }
      forall f | f in head + rest
        ensures exists i, j, t :: 0 <= i < |namespaces| && 0 <= j < |ex.atomics[namespaces[i]]| && 1 <= t <= enc.featureOrder
                                  && f == Feature(1.0, hash(SlotKey(h, t, Some(ex.atomics[namespaces[i]][j].weightIndex))))
      {
        if f in rest {
          var i, j, t :| 0 <= i < |tail| && 0 <= j < |ex.atomics[tail[i]]| && 1 <= t <= enc.featureOrder
                         && f == Feature(1.0, hash(SlotKey(h, t, Some(ex.atomics[tail[i]][j].weightIndex))));
          assert tail[i] == namespaces[i + 1];
        } else {
          var j, t :| 0 <= j < |ex.atomics[namespaces[0]]| && 1 <= t <= enc.featureOrder
                      && f == Feature(1.0, hash(SlotKey(h, t, Some(ex.atomics[namespaces[0]][j].weightIndex))));
        }
      }
    }
  }

  /** How many base features the listed namespaces hold. */
  function BaseCount(ex: Example, namespaces: seq<nat>): nat
    requires WellFormed(ex)
    requires forall i :: 0 <= i < |namespaces| ==> namespaces[i] < NumNamespaces
    decreases |namespaces|
  {
    if |namespaces| == 0 then 0
    else |ex.atomics[namespaces[0]]| + BaseCount(ex, namespaces[1..])
  }

  /** The whole injected block: the history features, then (when cross features are on) the
      cross features of every feature already in the example. */
  function HistoryBlock(enc: Encoder, ex: Example, h: History, hash: FeatureKey -> int): (r: seq<Feature>)
    requires ValidEncoder(enc) && |h| == enc.historyLength && WellFormed(ex)
    ensures UnitValued(r)
  {
    SlotFeatures(h, enc.historyOrder, enc.bigrams, None, hash, 1)
    + (if enc.featureOrder > 0 then CrossNamespaces(enc, ex, h, hash, ex.indices) else [])
  }

  /** The injected block holds the unigram of every slot up to the history order, the bigram of
      every such slot after the first when bigrams are on, and the cross feature of every slot up
      to the feature order with every feature of every namespace in use, and nothing else. */
  lemma HistoryBlockContents(enc: Encoder, ex: Example, h: History, hash: FeatureKey -> int)
    requires ValidEncoder(enc) && |h| == enc.historyLength && WellFormed(ex)
    ensures forall t :: 1 <= t <= enc.historyOrder ==> Feature(1.0, hash(SlotKey(h, t, None))) in HistoryBlock(enc, ex, h, hash)
    ensures forall t :: enc.bigrams && 2 <= t <= enc.historyOrder ==>
              Feature(1.0, hash(PairKey(h, t, None))) in HistoryBlock(enc, ex, h, hash)
    ensures forall i, j, t :: 0 <= i < |ex.indices| && 0 <= j < |ex.atomics[ex.indices[i]]| && 1 <= t <= enc.featureOrder ==>
              Feature(1.0, hash(SlotKey(h, t, Some(ex.atomics[ex.indices[i]][j].weightIndex)))) in HistoryBlock(enc, ex, h, hash)
    ensures forall f :: f in HistoryBlock(enc, ex, h, hash) ==>
              || (exists t :: 1 <= t <= enc.historyOrder
                              && (f == Feature(1.0, hash(SlotKey(h, t, None)))
                                  || (enc.bigrams && 2 <= t && f == Feature(1.0, hash(PairKey(h, t, None))))))
              || (exists i, j, t :: 0 <= i < |ex.indices| && 0 <= j < |ex.atomics[ex.indices[i]]| && 1 <= t <= enc.featureOrder
                                    && f == Feature(1.0, hash(SlotKey(h, t, Some(ex.atomics[ex.indices[i]][j].weightIndex)))))
  {
    SlotFeaturesContents(h, enc.historyOrder, enc.bigrams, None, hash, 1);
    CrossNamespacesContents(enc, ex, h, hash, ex.indices);
    var plain := SlotFeatures(h, enc.historyOrder, enc.bigrams, None, hash, 1);
    var cross := if enc.featureOrder > 0 then CrossNamespaces(enc, ex, h, hash, ex.indices) else [];
    assert HistoryBlock(enc, ex, h, hash) == plain + cross;
  }

  /** Closed form of the number of injected features. */
  function InjectedCount(enc: Encoder, ex: Example): nat
    requires WellFormed(ex)
  {
    BlockSize(enc.historyOrder, enc.bigrams)
    + BaseCount(ex, ex.indices) * BlockSize(enc.featureOrder, enc.bigramFeatures)
  }

  lemma {:induction false} CrossFeaturesSize(enc: Encoder, h: History, hash: FeatureKey -> int, fs: seq<Feature>)
    requires ValidEncoder(enc) && |h| == enc.historyLength
    ensures |CrossFeatures(enc, h, hash, fs)| == |fs| * BlockSize(enc.featureOrder, enc.bigramFeatures)
    decreases |fs|
  {
    if |fs| > 0 {
      SlotFeaturesSize(h, enc.featureOrder, enc.bigramFeatures, Some(fs[0].weightIndex), hash, 1);
      CrossFeaturesSize(enc, h, hash, fs[1..]);
      Distribute(1, |fs| - 1, BlockSize(enc.featureOrder, enc.bigramFeatures));
    }
  }

  lemma {:induction false} CrossNamespacesSize(enc: Encoder, ex: Example, h: History,
                                               hash: FeatureKey -> int, namespaces: seq<nat>)
    requires ValidEncoder(enc) && |h| == enc.historyLength && WellFormed(ex)
    requires forall i :: 0 <= i < |namespaces| ==> namespaces[i] < NumNamespaces
    ensures |CrossNamespaces(enc, ex, h, hash, namespaces)|
            == BaseCount(ex, namespaces) * BlockSize(enc.featureOrder, enc.bigramFeatures)
    decreases |namespaces|
  {
    if |namespaces| > 0 {
      CrossFeaturesSize(enc, h, hash, ex.atomics[namespaces[0]]);
      CrossNamespacesSize(enc, ex, h, hash, namespaces[1..]);
      Distribute(|ex.atomics[namespaces[0]]|, BaseCount(ex, namespaces[1..]),
                 BlockSize(enc.featureOrder, enc.bigramFeatures));
    }
  }

  lemma Distribute(x: nat, y: nat, b: nat)
    ensures (x + y) * b == x * b + y * b
  {
  }

  /** The injected block has exactly the closed-form size, and every injected feature has
      value 1 (so it adds 1 to the sum of squares). */
  lemma HistoryBlockSize(enc: Encoder, ex: Example, h: History, hash: FeatureKey -> int)
    requires ValidEncoder(enc) && |h| == enc.historyLength && WellFormed(ex)
    ensures |HistoryBlock(enc, ex, h, hash)| == InjectedCount(enc, ex)
    ensures UnitValued(HistoryBlock(enc, ex, h, hash))
  {
    SlotFeaturesSize(h, enc.historyOrder, enc.bigrams, None, hash, 1);
    if enc.featureOrder > 0 {
      CrossNamespacesSize(enc, ex, h, hash, ex.indices);
    } else {
      assert BlockSize(enc.featureOrder, enc.bigramFeatures) == 0;
    }
  }

  /** `add_history_to_example`: appends the history block to the reserved namespace, lists the
      namespace last, and adds the namespace's whole feature count to its sum of squares, the
      total sum of squares and the feature count. */
  function AddHistory(enc: Encoder, ex: Example, h: History, hash: FeatureKey -> int): (r: Example)
    requires ValidEncoder(enc) && |h| == enc.historyLength && WellFormed(ex)
    requires enc.namespace !in ex.indices
    ensures WellFormed(r)
    ensures r.indices == ex.indices + [enc.namespace]
    ensures r.atomics[enc.namespace] == ex.atomics[enc.namespace] + HistoryBlock(enc, ex, h, hash)
    ensures |r.atomics[enc.namespace]| == |ex.atomics[enc.namespace]| + InjectedCount(enc, ex)
    ensures r.numFeatures == ex.numFeatures + |r.atomics[enc.namespace]|
    ensures r.sumFeatSq[enc.namespace] == ex.sumFeatSq[enc.namespace] + |r.atomics[enc.namespace]| as real
    ensures r.totalSumFeatSq == ex.totalSumFeatSq + r.sumFeatSq[enc.namespace]
    ensures forall n :: 0 <= n < NumNamespaces && n != enc.namespace ==>
              r.atomics[n] == ex.atomics[n] && r.sumFeatSq[n] == ex.sumFeatSq[n]
  {
    var ns := enc.namespace;
    HistoryBlockSize(enc, ex, h, hash);
    var block := ex.atomics[ns] + HistoryBlock(enc, ex, h, hash);
    var sq := ex.sumFeatSq[ns] + |block| as real;
    Example(
      ex.indices + [ns],
      ex.atomics[ns := block],
      ex.sumFeatSq[ns := sq],
      ex.totalSumFeatSq + sq,
      ex.numFeatures + |block|)
  }

  /** Outcome of `remove_history_from_example`: the example and the warning it logs, if any. */
  datatype Removal = Removal(ex: Example, warning: Option<Warning>)

  /** `remove_history_from_example`: strips the reserved namespace when it is listed last;
      otherwise logs a warning and leaves the example alone. */
  function RemoveHistory(enc: Encoder, ex: Example): (r: Removal)
    requires WellFormed(ex) && enc.namespace < NumNamespaces
    ensures WellFormed(r.ex)
    ensures |ex.indices| == 0 ==> r == Removal(ex, Some(NoNamespacesToRemove))
    ensures |ex.indices| > 0 && ex.indices[|ex.indices| - 1] != enc.namespace
            ==> r == Removal(ex, Some(HistoryNotLastNamespace))
    ensures r.warning == None <==> |ex.indices| > 0 && ex.indices[|ex.indices| - 1] == enc.namespace
    ensures r.warning == None ==>
              && r.ex.indices == ex.indices[..|ex.indices| - 1]
              && r.ex.atomics[enc.namespace] == []
              && r.ex.sumFeatSq[enc.namespace] == 0.0
              && r.ex.numFeatures == ex.numFeatures - |ex.atomics[enc.namespace]|
              && r.ex.totalSumFeatSq == ex.totalSumFeatSq - ex.sumFeatSq[enc.namespace]
    ensures forall n :: 0 <= n < NumNamespaces && n != enc.namespace ==>
              r.ex.atomics[n] == ex.atomics[n] && r.ex.sumFeatSq[n] == ex.sumFeatSq[n]
  {
    var ns := enc.namespace;
    if |ex.indices| == 0 then Removal(ex, Some(NoNamespacesToRemove))
    else if ex.indices[|ex.indices| - 1] != ns then Removal(ex, Some(HistoryNotLastNamespace))
    else
      Removal(
        Example(
          ex.indices[..|ex.indices| - 1],
          ex.atomics[ns := []],
          ex.sumFeatSq[ns := 0.0],
          ex.totalSumFeatSq - ex.sumFeatSq[ns],
          ex.numFeatures - |ex.atomics[ns]|),
        None)
  }

  /** Removing right after adding restores the example exactly: feature count, sums of
      squares, namespace list, and an empty history namespace. */
  lemma AddRemoveRoundTrip(enc: Encoder, ex: Example, h: History, hash: FeatureKey -> int)
    requires ValidEncoder(enc) && |h| == enc.historyLength && WellFormed(ex)
    requires HistoryClean(enc, ex)
    ensures RemoveHistory(enc, AddHistory(enc, ex, h, hash)) == Removal(ex, None)
  {
  }

  /** The weight-table distance between policy blocks: `policy * length / k / policies`
      rounded down at each division, times the stride. */
  function PolicyOffset(policy: nat, tableLength: nat, k: nat, totalPolicies: nat, stride: nat): (r: nat)
    requires k > 0 && totalPolicies > 0
    ensures policy == 0 || tableLength == 0 || stride == 0 ==> r == 0
  {
    (policy * tableLength / k / totalPolicies) * stride
  }

  lemma DivMonotone(a: nat, b: nat, d: nat)
    requires a <= b && d > 0
    ensures a / d <= b / d
  {
    assert d * (a / d) <= a;
    assert b < d * (b / d + 1);
    MulCancel(d, a / d, b / d + 1);
  }

  lemma MulCancel(d: nat, x: int, y: int)
    requires d > 0 && d * x < d * y
    ensures x < y
  {
    if x >= y {
      MulMonotone(d, y, x);
    }
  }

  lemma MulMonotone(d: nat, x: int, y: int)
    requires x <= y
    ensures d * x <= d * y
  {
  }

  /** Later policies get offsets at least as far into the table. */
  lemma PolicyOffsetMonotone(p: nat, q: nat, tableLength: nat, k: nat, totalPolicies: nat, stride: nat)
    requires p <= q && k > 0 && totalPolicies > 0
    ensures PolicyOffset(p, tableLength, k, totalPolicies, stride)
            <= PolicyOffset(q, tableLength, k, totalPolicies, stride)
  {
    assert p * tableLength <= q * tableLength;
    DivMonotone(p * tableLength, q * tableLength, k);
    DivMonotone(p * tableLength / k, q * tableLength / k, totalPolicies);
    var a := p * tableLength / k / totalPolicies;
    var b := q * tableLength / k / totalPolicies;
    assert a * stride <= b * stride;
  }

  function ShiftFeatures(fs: seq<Feature>, delta: int): (r: seq<Feature>)
    ensures |r| == |fs|
    ensures forall j :: 0 <= j < |fs| ==>
              r[j].x == fs[j].x && r[j].weightIndex == fs[j].weightIndex + delta
  {
    seq(|fs|, j requires 0 <= j < |fs| => fs[j].(weightIndex := fs[j].weightIndex + delta))
  }

  /** Moves every feature's weight index by `delta` (the source's `OAA::update_indicies`,
      which is not part of this model, taken as a plain additive shift). */
  function Shift(ex: Example, delta: int): (r: Example)
    requires WellFormed(ex)
    ensures WellFormed(r)
    ensures r.indices == ex.indices && r.sumFeatSq == ex.sumFeatSq
    ensures r.totalSumFeatSq == ex.totalSumFeatSq && r.numFeatures == ex.numFeatures
    ensures forall n :: 0 <= n < NumNamespaces ==> r.atomics[n] == ShiftFeatures(ex.atomics[n], delta)
  {
    ex.(atomics := seq(|ex.atomics|, n requires 0 <= n < |ex.atomics| => ShiftFeatures(ex.atomics[n], delta)))
  }

  /** `add_policy_offset` and `remove_policy_offset`: the same amount, added and subtracted. */
  function AddPolicyOffset(ex: Example, policy: nat, tableLength: nat, k: nat, totalPolicies: nat, stride: nat): (r: Example)
    requires WellFormed(ex) && k > 0 && totalPolicies > 0
    ensures WellFormed(r) && r.indices == ex.indices && r.numFeatures == ex.numFeatures
    ensures forall n, j :: 0 <= n < NumNamespaces && 0 <= j < |ex.atomics[n]| ==>
              |r.atomics[n]| == |ex.atomics[n]| && r.atomics[n][j].x == ex.atomics[n][j].x
              && r.atomics[n][j].weightIndex
                 == ex.atomics[n][j].weightIndex + PolicyOffset(policy, tableLength, k, totalPolicies, stride)
  {
    Shift(ex, PolicyOffset(policy, tableLength, k, totalPolicies, stride))
  }

  function RemovePolicyOffset(ex: Example, policy: nat, tableLength: nat, k: nat, totalPolicies: nat, stride: nat): (r: Example)
    requires WellFormed(ex) && k > 0 && totalPolicies > 0
    ensures WellFormed(r) && r.indices == ex.indices && r.numFeatures == ex.numFeatures
    ensures forall n, j :: 0 <= n < NumNamespaces && 0 <= j < |ex.atomics[n]| ==>
              |r.atomics[n]| == |ex.atomics[n]| && r.atomics[n][j].x == ex.atomics[n][j].x
              && r.atomics[n][j].weightIndex
                 == ex.atomics[n][j].weightIndex - PolicyOffset(policy, tableLength, k, totalPolicies, stride)
  {
    Shift(ex, -(PolicyOffset(policy, tableLength, k, totalPolicies, stride) as int))
  }

  /** Removing an offset with the arguments it was added with restores every feature index. */
  lemma PolicyOffsetRoundTrip(ex: Example, policy: nat, tableLength: nat, k: nat, totalPolicies: nat, stride: nat)
    requires WellFormed(ex) && k > 0 && totalPolicies > 0
    ensures RemovePolicyOffset(AddPolicyOffset(ex, policy, tableLength, k, totalPolicies, stride),
                               policy, tableLength, k, totalPolicies, stride) == ex
  {
    var a := PolicyOffset(policy, tableLength, k, totalPolicies, stride);
    var r := Shift(Shift(ex, a), -(a as int));
    forall n | 0 <= n < NumNamespaces
      ensures r.atomics[n] == ex.atomics[n]
    {
      assert ShiftFeatures(ShiftFeatures(ex.atomics[n], a), -(a as int)) == ex.atomics[n];
    }
    assert r.atomics == ex.atomics;
  }

  /** The learner's view of one training example and the example afterwards
      (`generate_training_example` without the learner call). */
  datatype TrainingCall = TrainingCall(presented: Example, restored: Example)

  function GenerateTrainingExample(enc: Encoder, ex: Example, h: History, hash: FeatureKey -> int,
                                   policy: nat, tableLength: nat, k: nat, totalPolicies: nat, stride: nat): (r: TrainingCall)
    requires ValidEncoder(enc) && |h| == enc.historyLength && WellFormed(ex)
    requires enc.namespace !in ex.indices
    requires k > 0 && totalPolicies > 0
    ensures r.presented.indices == ex.indices + [enc.namespace]
    ensures r.presented.numFeatures
            == ex.numFeatures + |ex.atomics[enc.namespace]| + InjectedCount(enc, ex)
    ensures WellFormed(r.presented)
    ensures forall n :: 0 <= n < NumNamespaces && n != enc.namespace ==>
              r.presented.atomics[n]
              == ShiftFeatures(ex.atomics[n], PolicyOffset(policy, tableLength, k, totalPolicies, stride))
    ensures r.presented.atomics[enc.namespace]
            == ShiftFeatures(ex.atomics[enc.namespace] + HistoryBlock(enc, ex, h, hash),
                             PolicyOffset(policy, tableLength, k, totalPolicies, stride))
  {
    var withHistory := AddHistory(enc, ex, h, hash);
    var presented := AddPolicyOffset(withHistory, policy, tableLength, k, totalPolicies, stride);
    var stripped := RemoveHistory(enc, presented).ex;
    TrainingCall(presented, RemovePolicyOffset(stripped, policy, tableLength, k, totalPolicies, stride))
  }

  /** A training call leaves a clean example exactly as it found it, even though the history
      is stripped while the offset is still applied. */
  lemma TrainingCallRestoresExample(enc: Encoder, ex: Example, h: History, hash: FeatureKey -> int,
                                    policy: nat, tableLength: nat, k: nat, totalPolicies: nat, stride: nat)
    requires ValidEncoder(enc) && |h| == enc.historyLength && WellFormed(ex)
    requires HistoryClean(enc, ex)
    requires k > 0 && totalPolicies > 0
    ensures GenerateTrainingExample(enc, ex, h, hash, policy, tableLength, k, totalPolicies, stride).restored == ex
  {
    var a := PolicyOffset(policy, tableLength, k, totalPolicies, stride);
    var withHistory := AddHistory(enc, ex, h, hash);
    var presented := Shift(withHistory, a);
    var removal := RemoveHistory(enc, presented);
    assert removal.warning == None;
    var restored := Shift(removal.ex, -(a as int));
    forall n | 0 <= n < NumNamespaces
      ensures restored.atomics[n] == ex.atomics[n]
    {
      if n == enc.namespace {
        assert restored.atomics[n] == ShiftFeatures([], -(a as int));
      } else {
        assert ShiftFeatures(ShiftFeatures(ex.atomics[n], a), -(a as int)) == ex.atomics[n];
      }
    }
    assert restored.atomics == ex.atomics;
    assert restored.sumFeatSq == ex.sumFeatSq;
    assert restored.indices == ex.indices;
  }
}

=== FILE: history.dfy ===
/** The fixed-length window of recent predictions; the most recent one is at the END. */
module History {

  type History = seq<nat>

  /** The all-zero window of length `length` (`clear_history`). */
  function Clear(length: nat): (h: History)
    ensures |h| == length
    ensures forall i :: 0 <= i < length ==> h[i] == 0
  {
    seq(length, _ => 0)
  }

  /** Drops the oldest slot and writes `p` into the newest one (`append_history`). */
  function Append(h: History, p: nat): (r: History)
    ensures |r| == |h|
    ensures forall i :: 0 <= i < |h| - 1 ==> r[i] == h[i + 1]
    ensures |h| > 0 ==> r[|h| - 1] == p
  {
    if |h| == 0 then h else h[1..] + [p]
  }

  /** The newest label (`last_prediction`): the window is its older slots followed by it. */
  function LastPrediction(h: History): (r: nat)
    requires |h| > 0
    ensures h == h[..|h| - 1] + [r]
  {
    h[|h| - 1]
  }

  /** Appends the labels of `ps` one after another, oldest first. */
  function AppendAll(h: History, ps: seq<nat>): History
    decreases |ps|
  {
    if |ps| == 0 then h else Append(AppendAll(h, ps[..|ps| - 1]), ps[|ps| - 1])
  }

  /** After any run of appends the window holds exactly the last |h| labels of the
      old contents followed by everything appended. */
  lemma {:induction false} AppendAllWindow(h: History, ps: seq<nat>)
    ensures AppendAll(h, ps) == (h + ps)[|ps|..]
    decreases |ps|
  {
    if |ps| > 0 {
      var front := ps[..|ps| - 1];
      AppendAllWindow(h, front);
      var w := AppendAll(h, front);
      assert w == (h + front)[|front|..];
      if |h| == 0 {
        assert (h + ps)[|ps|..] == [];
      } else {
        assert (h + front)[|front|..][1..] + [ps[|ps| - 1]] == (h + ps)[|ps|..];
      }
    }
  }

  /** Once at least |h| labels have been appended, nothing of the old contents remains. */
  lemma AppendAllForgets(h: History, ps: seq<nat>)
    requires |ps| >= |h|
    ensures AppendAll(h, ps) == ps[|ps| - |h|..]
  {
    AppendAllWindow(h, ps);
    assert (h + ps)[|ps|..] == ps[|ps| - |h|..];
  }

  /** The worked example: a window of three, two appends. */
  lemma AppendExample()
    ensures Append(Clear(3), 5) == [0, 0, 5]
    ensures Append(Append(Clear(3), 5), 7) == [0, 5, 7]
  {
  }
}

=== FILE: policy.dfy ===
/** Choosing a behaviour policy: a frozen learner snapshot, the current one, or the oracle. */
module Policy {

  /** The policy id that stands for "consult the true label". */
  const Oracle: int := -1

  /** How many options `random_policy` may pick from. */
  function NumValid(currentPolicy: nat, allowOptimal: bool, allowCurrent: bool): nat
  {
    currentPolicy + (if allowOptimal then 1 else 0) + (if allowCurrent then 1 else 0)
  }

  /** Reference ranking of the valid options, most recent first: the current policy (when
      allowed), then the frozen policies from newest to oldest, then the oracle (when allowed). */
  function RankedOptions(currentPolicy: nat, allowOptimal: bool, allowCurrent: bool): (r: seq<int>)
    ensures |r| == NumValid(currentPolicy, allowOptimal, allowCurrent)
  {
    (if allowCurrent then [currentPolicy as int] else [])
    + seq(currentPolicy, j requires 0 <= j < currentPolicy => currentPolicy - 1 - j)
    + (if allowOptimal then [Oracle] else [])
  }

  /** The sampled rank is a nondeterministic input; the sampler only ever produces ranks below
      the number of valid options, and with at most one option the rank is not sampled. */
  predicate RankInRange(currentPolicy: nat, allowOptimal: bool, allowCurrent: bool, rank: nat)
  {
    NumValid(currentPolicy, allowOptimal, allowCurrent) <= 1
    || rank < NumValid(currentPolicy, allowOptimal, allowCurrent)
  }

  /** The rank the selection actually uses: fixed at 0 when there is no choice to make. */
  function EffectiveRank(beta: real, currentPolicy: nat, allowOptimal: bool, allowCurrent: bool, rank: nat): nat
  {
    if beta >= 1.0 || NumValid(currentPolicy, allowOptimal, allowCurrent) <= 1 then 0 else rank
  }

  /** `random_policy`: with beta >= 1 the most recent allowed option; otherwise the option at the
      sampled rank, counting backwards from the most recent, the oracle being the last rank. */
  function RandomPolicy(beta: real, currentPolicy: nat, allowOptimal: bool, allowCurrent: bool, rank: nat): (r: int)
    requires beta < 1.0 ==> RankInRange(currentPolicy, allowOptimal, allowCurrent, rank)
    ensures r == Oracle ==> allowOptimal
    ensures r != Oracle ==> 0 <= r <= currentPolicy
    ensures r == currentPolicy && !allowCurrent ==> NumValid(currentPolicy, allowOptimal, allowCurrent) == 0
    ensures NumValid(currentPolicy, allowOptimal, allowCurrent) == 0 ==> r == currentPolicy
  {
    if beta >= 1.0 then
      if allowCurrent then currentPolicy
      else if currentPolicy > 0 then currentPolicy - 1
      else if allowOptimal then Oracle
      else currentPolicy  // reported as an internal error; falls back to the current policy
    else
      var numValid := NumValid(currentPolicy, allowOptimal, allowCurrent);
      if numValid == 0 then currentPolicy  // reported as an internal error
      else
        var pid := if numValid == 1 then 0 else rank;
        if allowOptimal && pid == numValid - 1 then Oracle
        else currentPolicy - pid - (if allowCurrent then 0 else 1)
  }

  /** Whatever the mixing parameter, the choice is the option of the reference ranking at the
      effective rank (rank 0, the most recent, in the deterministic case). */
  lemma RandomPolicyFollowsRanking(beta: real, currentPolicy: nat, allowOptimal: bool, allowCurrent: bool, rank: nat)
    requires beta < 1.0 ==> RankInRange(currentPolicy, allowOptimal, allowCurrent, rank)
    requires NumValid(currentPolicy, allowOptimal, allowCurrent) > 0
    ensures EffectiveRank(beta, currentPolicy, allowOptimal, allowCurrent, rank)
            < NumValid(currentPolicy, allowOptimal, allowCurrent)
    ensures RandomPolicy(beta, currentPolicy, allowOptimal, allowCurrent, rank)
            == RankedOptions(currentPolicy, allowOptimal, allowCurrent)[EffectiveRank(beta, currentPolicy, allowOptimal, allowCurrent, rank)]
  {
  }

  /** Sampled case: the oracle is chosen exactly for the last rank, and only when allowed;
      every other rank names the policy `currentPolicy - pid` (one older if the current
      policy is not allowed). */
  lemma SampledRankMapping(beta: real, currentPolicy: nat, allowOptimal: bool, allowCurrent: bool, rank: nat)
    requires beta < 1.0
    requires 1 < NumValid(currentPolicy, allowOptimal, allowCurrent)
    requires rank < NumValid(currentPolicy, allowOptimal, allowCurrent)
    ensures var r := RandomPolicy(beta, currentPolicy, allowOptimal, allowCurrent, rank);
            (r == Oracle <==> allowOptimal && rank == NumValid(currentPolicy, allowOptimal, allowCurrent) - 1)
            && (r != Oracle ==> r == currentPolicy - rank - (if allowCurrent then 0 else 1))
  {
  }

  /** Deterministic case (beta >= 1): the priority order current, previous, oracle. */
  lemma DeterministicChoice(beta: real, currentPolicy: nat, allowOptimal: bool, allowCurrent: bool)
    requires beta >= 1.0
    ensures var r := RandomPolicy(beta, currentPolicy, allowOptimal, allowCurrent, 0);
            && (allowCurrent ==> r == currentPolicy)
            && (!allowCurrent && currentPolicy > 0 ==> r == currentPolicy - 1)
            && (!allowCurrent && currentPolicy == 0 && allowOptimal ==> r == Oracle)
            && (!allowCurrent && currentPolicy == 0 && !allowOptimal ==> r == currentPolicy)
  {
  }

  /** Before any policy has been frozen, a choice that may use the oracle but not the current
      policy always picks the oracle. */
  lemma FirstEpochPicksOracle(beta: real, rank: nat)
    requires beta < 1.0 ==> RankInRange(0, true, false, rank)
    ensures RandomPolicy(beta, 0, true, false, rank) == Oracle
  {
  }
}

=== FILE: reader.dfy ===
/** `safe_get_example`: reading the next example of a sequence, growing the policy count when
    the stream starts a new pass, and clamping labels above the class count. */
module Reader {
  import opened Base

  /** What the stream hands over: the example's running counter, its pass, and its label. */
  datatype Incoming = Incoming(counter: nat, pass: nat, y: nat)

  /** The counters `safe_get_example` keeps between calls. */
  datatype ReaderState = ReaderState(
    readThisLoop: nat,
    lastId: nat,
    lastPass: nat,
    shouldWarnEof: bool,
    passesSinceNewPolicy: nat,
    currentPolicy: nat,
    warnedOverage: bool,
    gotNull: bool)

  /** Ring capacity, class count, passes per frozen policy and the policy budget. */
  datatype ReaderConfig = ReaderConfig(ringSize: nat, k: nat, passesPerPolicy: nat, totalPolicies: nat)

  datatype Advance = Advance(state: ReaderState, warnings: seq<Warning>)

  /** One pass change: count it, and every `passesPerPolicy`-th one moves to a new policy,
      clamped to the budget with a warning. */
  function AdvancePolicy(cfg: ReaderConfig, st: ReaderState): (r: Advance)
    ensures st.currentPolicy <= cfg.totalPolicies ==> r.state.currentPolicy <= cfg.totalPolicies
    ensures st.currentPolicy < cfg.totalPolicies ==> r.state.currentPolicy - st.currentPolicy in {0, 1}
    ensures r.state.currentPolicy != st.currentPolicy ==> r.state.passesSinceNewPolicy == 0
    ensures cfg.passesPerPolicy > 0 && st.passesSinceNewPolicy < cfg.passesPerPolicy
            ==> r.state.passesSinceNewPolicy < cfg.passesPerPolicy
    ensures r.state == st.(passesSinceNewPolicy := r.state.passesSinceNewPolicy,
                           currentPolicy := r.state.currentPolicy)
    ensures TooManyPolicies in r.warnings <==>
              st.passesSinceNewPolicy + 1 >= cfg.passesPerPolicy && st.currentPolicy + 1 > cfg.totalPolicies
    ensures forall w :: w in r.warnings ==> w == TooManyPolicies
  {
    var passes := st.passesSinceNewPolicy + 1;
    if passes >= cfg.passesPerPolicy then
      var policy := st.currentPolicy + 1;
      if policy > cfg.totalPolicies then
        Advance(st.(passesSinceNewPolicy := 0, currentPolicy := cfg.totalPolicies), [TooManyPolicies])
      else
        Advance(st.(passesSinceNewPolicy := 0, currentPolicy := policy), [])
    else
      Advance(st.(passesSinceNewPolicy := passes), [])
  }

  /** `m` pass changes in a row. */
  function AdvanceMany(cfg: ReaderConfig, st: ReaderState, m: nat): ReaderState
    decreases m
  {
    if m == 0 then st else AdvancePolicy(cfg, AdvanceMany(cfg, st, m - 1)).state
  }

  lemma DivModStep(a: nat, p: nat)
    requires p > 0
    ensures a % p + 1 < p ==> (a + 1) / p == a / p && (a + 1) % p == a % p + 1
    ensures a % p + 1 == p ==> (a + 1) / p == a / p + 1 && (a + 1) % p == 0
  {
    var q, r := a / p, a % p;
    assert a == p * q + r;
    if r + 1 < p {
      DivModUnique(a + 1, p, q, r + 1);
    } else {
      assert a + 1 == p * (q + 1);
      DivModUnique(a + 1, p, q + 1, 0);
    }
  }

  lemma DivModUnique(a: nat, p: nat, q: nat, r: nat)
    requires p > 0 && r < p && a == p * q + r
    ensures a / p == q && a % p == r
  {
    var q', r' := a / p, a % p;
    assert a == p * q' + r';
    if q < q' {
      AtLeastOneMore(p, q, q');
    } else if q > q' {
      AtLeastOneMore(p, q', q);
    }
  }

  lemma AtLeastOneMore(p: nat, x: nat, y: nat)
    requires x < y
    ensures p * x + p <= p * y
  {
    var d := y - x;
    assert p * y == p * x + p * d;
    MulAtLeast(p, d);
  }

  lemma {:induction false} MulAtLeast(p: nat, d: nat)
    requires d >= 1
    ensures p * d >= p
    decreases d
  {
    if d > 1 {
      MulAtLeast(p, d - 1);
      assert p * d == p * (d - 1) + p;
    }
  }

  /** The policy count after `m` pass changes: one new policy per `passesPerPolicy` passes,
      never beyond the budget; the pass counter wraps around modulo `passesPerPolicy`. */
  lemma {:induction false} AdvanceManyClosedForm(cfg: ReaderConfig, st: ReaderState, m: nat)
    requires cfg.passesPerPolicy > 0
    requires st.passesSinceNewPolicy < cfg.passesPerPolicy
    requires st.currentPolicy <= cfg.totalPolicies
    ensures AdvanceMany(cfg, st, m).passesSinceNewPolicy
            == (st.passesSinceNewPolicy + m) % cfg.passesPerPolicy
    ensures AdvanceMany(cfg, st, m).currentPolicy
            == Min(cfg.totalPolicies, st.currentPolicy + (st.passesSinceNewPolicy + m) / cfg.passesPerPolicy)
    decreases m
  {
    var p := cfg.passesPerPolicy;
    var a := st.passesSinceNewPolicy + m;
    if m == 0 {
      DivModUnique(st.passesSinceNewPolicy, p, 0, st.passesSinceNewPolicy);
    } else {
      AdvanceManyClosedForm(cfg, st, m - 1);
      DivModStep(a - 1, p);
    }
  }

  /** A clamped label, whether the overage warning has been given, and the warnings logged. */
  datatype Clamped = Clamped(y: nat, warnedOverage: bool, warnings: seq<Warning>)

  /** The corrected clamp: labels above the class count are replaced by the class count, with
      one warning per run, and the test sentinel is left alone, so the example still reads as a
      test example. */
  function ClampLabel(k: nat, y: nat, warned: bool): (r: Clamped)
    ensures y <= k || y == TestLabel ==> r == Clamped(y, warned, [])
    ensures y > k && y != TestLabel ==> r.y == k && r.warnedOverage
    ensures |r.warnings| > 0 ==> !warned
    ensures y > k && y != TestLabel ==> (|r.warnings| > 0 <==> !warned)
    ensures forall w :: w in r.warnings ==> w == ClassOverage(k, y)
  {
    if y > k && y != TestLabel then
      Clamped(k, true, if warned then [] else [ClassOverage(k, y)])
    else
      Clamped(y, warned, [])
  }

  /** The clamp as the source writes it: every label above k, the test sentinel included. */
  function ClampLabelAsWritten(k: nat, y: nat, warned: bool): (r: Clamped)
    ensures y <= k ==> r == Clamped(y, warned, [])
    ensures y > k ==> r.y == k && r.warnedOverage
    ensures |r.warnings| > 0 ==> !warned
    ensures y > k ==> (|r.warnings| > 0 <==> !warned)
    ensures forall w :: w in r.warnings ==> w == ClassOverage(k, y)
  {
    if y > k then
      Clamped(k, true, if warned then [] else [ClassOverage(k, y)])
    else
      Clamped(y, warned, [])
  }

  /** With fewer classes than the sentinel value, the source turns every test example into a
      training example of class k; the corrected clamp keeps it a test example. */
  lemma ClampAsWrittenErasesTestExamples(k: nat, warned: bool)
    requires k < TestLabel
    ensures ClampLabelAsWritten(k, TestLabel, warned).y != TestLabel
    ensures ClampLabel(k, TestLabel, warned).y == TestLabel
  {
  }

  /** A new pass starts: record it, warn once about the missing empty example unless reading
      past the end is allowed, and count the pass change. */
  function NewPass(cfg: ReaderConfig, st: ReaderState, pass: nat, allowPastEof: bool): (r: Advance)
    ensures r.state.lastPass == pass
    ensures r.state.readThisLoop == st.readThisLoop && r.state.lastId == st.lastId
    ensures r.state.warnedOverage == st.warnedOverage && r.state.gotNull == st.gotNull
    ensures r.state.currentPolicy == AdvancePolicy(cfg, st).state.currentPolicy
    ensures r.state.passesSinceNewPolicy == AdvancePolicy(cfg, st).state.passesSinceNewPolicy
    ensures MissingEmptyExample in r.warnings <==> !allowPastEof && st.shouldWarnEof
    ensures r.state.shouldWarnEof == (st.shouldWarnEof && allowPastEof)
    ensures TooManyPolicies in r.warnings <==> TooManyPolicies in AdvancePolicy(cfg, st).warnings
    ensures forall w :: w in r.warnings ==> w == MissingEmptyExample || w == TooManyPolicies
  {
    var eofWarn := !allowPastEof && st.shouldWarnEof;
    var st2 := st.(lastPass := pass, shouldWarnEof := st.shouldWarnEof && !eofWarn);
    var adv := AdvancePolicy(cfg, st2);
    Advance(adv.state, (if eofWarn then [MissingEmptyExample] else []) + adv.warnings)
  }

  datatype ReadResult = ReadResult(state: ReaderState, example: Option<Incoming>, warnings: seq<Warning>)

  /** The policy schedule reads only the pass and policy counters. */
  lemma AdvancePolicyFrame(cfg: ReaderConfig, a: ReaderState, b: ReaderState)
    requires a.passesSinceNewPolicy == b.passesSinceNewPolicy && a.currentPolicy == b.currentPolicy
    ensures AdvancePolicy(cfg, a).state.currentPolicy == AdvancePolicy(cfg, b).state.currentPolicy
    ensures AdvancePolicy(cfg, a).state.passesSinceNewPolicy == AdvancePolicy(cfg, b).state.passesSinceNewPolicy
    ensures AdvancePolicy(cfg, a).warnings == AdvancePolicy(cfg, b).warnings
  {
  }

  /** The pass check of a delivered example (lines 658-667): a new pass number starts a pass,
      the same one leaves the state alone. */
  function PassChange(cfg: ReaderConfig, st: ReaderState, pass: nat, allowPastEof: bool): (r: Advance)
    ensures r.state.lastPass == pass
    ensures r.state.readThisLoop == st.readThisLoop && r.state.lastId == st.lastId
    ensures r.state.warnedOverage == st.warnedOverage && r.state.gotNull == st.gotNull
    ensures st.currentPolicy <= cfg.totalPolicies ==> r.state.currentPolicy <= cfg.totalPolicies
    ensures pass == st.lastPass ==> r == Advance(st, [])
    ensures pass != st.lastPass ==> r == NewPass(cfg, st, pass, allowPastEof)
    ensures forall w :: w in r.warnings ==> w == MissingEmptyExample || w == TooManyPolicies
  {
    if pass != st.lastPass then NewPass(cfg, st, pass, allowPastEof) else Advance(st, [])
  }

  /** A delivered example (lines 644-677): count it, handle a pass change, and clamp its label
      as the source writes it, warning about the overage once per run. */
  function AcceptExample(cfg: ReaderConfig, st: ReaderState, ec: Incoming, allowPastEof: bool): (r: ReadResult)
    ensures r.example == Some(ec.(y := ClampLabelAsWritten(cfg.k, ec.y, st.warnedOverage).y))
    ensures r.state.readThisLoop == st.readThisLoop + 1 && r.state.lastId == ec.counter
    ensures r.state.lastPass == ec.pass && r.state.gotNull == st.gotNull
    ensures st.currentPolicy <= cfg.totalPolicies ==> r.state.currentPolicy <= cfg.totalPolicies
    ensures MissingEmptyExample in r.warnings <==> ec.pass != st.lastPass && !allowPastEof && st.shouldWarnEof
    ensures ec.pass != st.lastPass && !allowPastEof && st.shouldWarnEof ==> !r.state.shouldWarnEof
    ensures ec.pass == st.lastPass ==>
              r.state.currentPolicy == st.currentPolicy && r.state.passesSinceNewPolicy == st.passesSinceNewPolicy
    ensures ec.pass != st.lastPass ==>
              && r.state.currentPolicy == AdvancePolicy(cfg, st).state.currentPolicy
              && r.state.passesSinceNewPolicy == AdvancePolicy(cfg, st).state.passesSinceNewPolicy
              && (TooManyPolicies in r.warnings <==> TooManyPolicies in AdvancePolicy(cfg, st).warnings)
    ensures r.state.warnedOverage == (st.warnedOverage || ec.y > cfg.k)
    ensures ClassOverage(cfg.k, ec.y) in r.warnings <==> ec.y > cfg.k && !st.warnedOverage
  {
    var st1 := st.(readThisLoop := st.readThisLoop + 1, lastId := ec.counter);
    var passed := PassChange(cfg, st1, ec.pass, allowPastEof);
    var clamped := ClampLabelAsWritten(cfg.k, ec.y, passed.state.warnedOverage);
    AdvancePolicyFrame(cfg, st, st1);
    ReadResult(
      passed.state.(warnedOverage := clamped.warnedOverage),
      Some(ec.(y := clamped.y)),
      passed.warnings + clamped.warnings)
  }

  /** `safe_get_example`. `next` is what the stream would deliver (None at its end). The label
      is clamped as the source writes it, test sentinel included; `ClampLabel` is the clamp a
      corrected read would call instead. */
  function SafeGetExample(cfg: ReaderConfig, st: ReaderState, next: Option<Incoming>, allowPastEof: bool): (r: ReadResult)
    ensures st.readThisLoop == cfg.ringSize ==>
              r.example == None && !r.state.gotNull && r.warnings == [RingSizeExceeded(st.lastId)]
    ensures st.readThisLoop != cfg.ringSize && next == None ==> r.example == None && r.state.gotNull
    ensures r.example.Some? <==> st.readThisLoop != cfg.ringSize && next.Some?
    ensures r.example.Some? ==>
              && r.example.value.counter == next.value.counter
              && r.example.value.pass == next.value.pass
              && r.example.value == next.value.(y := ClampLabelAsWritten(cfg.k, next.value.y, st.warnedOverage).y)
              && r.state.readThisLoop == st.readThisLoop + 1
              && r.state.lastPass == next.value.pass
    ensures st.currentPolicy <= cfg.totalPolicies ==> r.state.currentPolicy <= cfg.totalPolicies
    ensures r.example.Some? && next.value.pass != st.lastPass && !allowPastEof && st.shouldWarnEof ==>
              MissingEmptyExample in r.warnings && !r.state.shouldWarnEof
    ensures MissingEmptyExample in r.warnings ==>
              st.shouldWarnEof && !allowPastEof && r.example.Some? && next.value.pass != st.lastPass
    ensures r.state.warnedOverage == (st.warnedOverage || (r.example.Some? && next.value.y > cfg.k))
    ensures next.Some? ==>
              (ClassOverage(cfg.k, next.value.y) in r.warnings
               <==> r.example.Some? && next.value.y > cfg.k && !st.warnedOverage)
    ensures (r.example.None? || next.value.pass == st.lastPass) ==>
              r.state.currentPolicy == st.currentPolicy
              && r.state.passesSinceNewPolicy == st.passesSinceNewPolicy
    ensures r.example.Some? && next.value.pass != st.lastPass ==>
              && r.state.currentPolicy == AdvancePolicy(cfg, st).state.currentPolicy
              && r.state.passesSinceNewPolicy == AdvancePolicy(cfg, st).state.passesSinceNewPolicy
              && (TooManyPolicies in r.warnings <==> TooManyPolicies in AdvancePolicy(cfg, st).warnings)
  {
    var st0 := st.(gotNull := false);
    if st0.readThisLoop == cfg.ringSize then
      ReadResult(st0, None, [RingSizeExceeded(st0.lastId)])
    else
      match next
      case None => ReadResult(st0.(gotNull := true), None, [])
      case Some(ec) => AcceptExample(cfg, st0, ec, allowPastEof)
  }
}

=== FILE: rollout_cache.dfy ===
/** The per-position cache of rollout candidates (`history_item`, `hcache`): one candidate per
    label, ordered and grouped so that candidates whose recent history agrees are simulated once. */
module RolloutCache {
  import opened History

  /** A rollout candidate. `hash` is the rolling hash of `predictions`; `originalLabel` is the
      0-based label this candidate branched on; `same` marks a duplicate of its predecessor. */
  datatype HistoryItem = HistoryItem(
    predictions: History,
    hash: nat,
    loss: real,
    originalLabel: nat,
    same: bool)

  /** `append_history_item`. The item is received BY VALUE, so the hash and `same` updates the
      source makes are lost; only the history buffer, which the item only refers to,
      advances. */
  function AppendHistoryItem(hi: HistoryItem, p: nat): (r: HistoryItem)
    ensures r.hash == hi.hash && r.same == hi.same
    ensures r.loss == hi.loss && r.originalLabel == hi.originalLabel
    ensures |r.predictions| == |hi.predictions|
    ensures |hi.predictions| > 0 ==> LastPrediction(r.predictions) == p
    ensures forall i :: 0 <= i < |hi.predictions| - 1 ==> r.predictions[i] == hi.predictions[i + 1]
  {
    hi.(predictions := Append(hi.predictions, p))
  }

  /** The ordering key the comparator effectively uses: the most recent slot. */
  function Key(hi: HistoryItem): nat
  {
    if |hi.predictions| == 0 then 0 else LastPrediction(hi.predictions)
  }

  function Compare(a: nat, b: nat): int
  {
    if a < b then -1 else if a > b then 1 else 0
  }

  /** `order_history_item`, as written: the second hash test repeats `<`, and the slot loop
      returns on its first iteration, so only the most recent slot is ever compared. */
  function OrderHistoryItem(a: HistoryItem, b: HistoryItem): (r: int)
    requires |a.predictions| > 0 && |b.predictions| == |a.predictions|
    ensures -1 <= r <= 1
    ensures a.hash < b.hash ==> r == -1
    ensures a.hash >= b.hash ==> r == Compare(Key(a), Key(b))
  {
    var last := |a.predictions| - 1;
    if a.hash < b.hash then -1
    else if a.hash < b.hash then 1
    else if a.predictions[last] < b.predictions[last] then -1
    else if a.predictions[last] > b.predictions[last] then 1
    else 0
  }

  /** The comparator never answers 1 on account of the hashes: a larger hash falls through to
      the slot test. With different hashes it is therefore not antisymmetric. */
  lemma ComparatorInconsistentOnHashes()
    ensures var a := HistoryItem([2], 0, 0.0, 0, false);
            var b := HistoryItem([1], 1, 0.0, 1, false);
            OrderHistoryItem(a, b) == -1 && OrderHistoryItem(b, a) == -1
  {
  }

  /** Histories that differ in every slot but the most recent still compare equal. */
  lemma ComparatorIgnoresOlderSlots()
    ensures var a := HistoryItem([1, 3], 0, 0.0, 0, false);
            var b := HistoryItem([2, 3], 0, 0.0, 1, false);
            OrderHistoryItem(a, b) == 0 && a.predictions != b.predictions
  {
  }

  /** Every candidate has a window of length `length`, and all hashes agree (the source resets
      them to 0 and, because of the by-value update, never changes them). */
  predicate Shaped(items: seq<HistoryItem>, length: nat)
  {
    forall i :: 0 <= i < |items| ==> |items[i].predictions| == length && items[i].hash == 0
  }

  predicate Sorted(items: seq<HistoryItem>)
  {
    forall i, j :: 0 <= i < j < |items| ==> Key(items[i]) <= Key(items[j])
  }

  function Labels(items: seq<HistoryItem>): (r: seq<nat>)
    ensures |r| == |items|
    ensures forall i :: 0 <= i < |items| ==> r[i] == items[i].originalLabel
  {
    seq(|items|, i requires 0 <= i < |items| => items[i].originalLabel)
  }

  /** Stable insertion of `x` after every item whose key is not larger. */
  function Insert(x: HistoryItem, s: seq<HistoryItem>): (r: seq<HistoryItem>)
    ensures |r| == |s| + 1
  {
    if |s| == 0 then [x]
    else if Key(x) < Key(s[0]) then [x] + s
    else [s[0]] + Insert(x, s[1..])
  }

  /** Insertion adds `x` and keeps every other item. */
  lemma {:induction false} InsertPermutes(x: HistoryItem, s: seq<HistoryItem>)
    ensures multiset(Insert(x, s)) == multiset(s) + multiset{x}
    ensures forall y :: y in Insert(x, s) ==> y == x || y in s
    decreases |s|
  {
    if |s| > 0 && Key(x) >= Key(s[0]) {
      SplitFirst(s);
      InsertPast(x, s);
      InsertPermutes(x, s[1..]);
    }
    var r := Insert(x, s);
    forall y | y in r
      ensures y == x || y in s
    {
      assert y in multiset(r);
    }
  }

  /** Insertion carries the inserted candidate's original label along with it. */
  lemma {:induction false} InsertLabels(x: HistoryItem, s: seq<HistoryItem>)
    ensures multiset(Labels(Insert(x, s))) == multiset(Labels(s)) + multiset{x.originalLabel}
    decreases |s|
  {
    if |s| == 0 {
      assert Labels([x]) == [x.originalLabel];
    } else if Key(x) < Key(s[0]) {
      LabelsCons(x, s);
    } else {
      var tail := s[1..];
      var rest := Insert(x, tail);
      SplitFirst(s);
      InsertPast(x, s);
      InsertLabels(x, tail);
      LabelsCons(s[0], tail);
      LabelsCons(s[0], rest);
      assert multiset(Labels(Insert(x, s))) == multiset{s[0].originalLabel} + multiset(Labels(rest));
    }
  }

  lemma SplitFirst(s: seq<HistoryItem>)
    requires |s| > 0
    ensures s == [s[0]] + s[1..]
  {
  }

  lemma SplitLast(s: seq<HistoryItem>)
    requires |s| > 0
    ensures s == s[..|s| - 1] + [s[|s| - 1]]
  {
  }

  /** Past an item whose key is not larger, insertion keeps that item in front. */
  lemma InsertPast(x: HistoryItem, s: seq<HistoryItem>)
    requires |s| > 0 && Key(x) >= Key(s[0])
    ensures Insert(x, s) == [s[0]] + Insert(x, s[1..])
  {
  }

  lemma LabelsCons(x: HistoryItem, s: seq<HistoryItem>)
    ensures Labels([x] + s) == [x.originalLabel] + Labels(s)
  {
  }

  /** Every key in `s` is at least `k`. */
  predicate KeysAtLeast(s: seq<HistoryItem>, k: nat)
  {
    forall i :: 0 <= i < |s| ==> k <= Key(s[i])
  }

  /** Insertion keeps a lower bound that both the item and the sequence respect. */
  lemma {:induction false} InsertKeysAtLeast(x: HistoryItem, s: seq<HistoryItem>, k: nat)
    requires k <= Key(x) && KeysAtLeast(s, k)
    ensures KeysAtLeast(Insert(x, s), k)
    decreases |s|
  {
    if |s| > 0 && Key(x) >= Key(s[0]) {
      InsertPast(x, s);
      InsertKeysAtLeast(x, s[1..], k);
      var r := Insert(x, s);
      forall i | 0 <= i < |r|
        ensures k <= Key(r[i])
      {
        if i > 0 {
          assert r[i] == Insert(x, s[1..])[i - 1];
        }
      }
    }
  }

  /** An item whose key bounds a sorted sequence from below can go in front of it. */
  lemma ConsSorted(y: HistoryItem, s: seq<HistoryItem>)
    requires Sorted(s) && KeysAtLeast(s, Key(y))
    ensures Sorted([y] + s)
  {
    var r := [y] + s;
    forall i, j | 0 <= i < j < |r|
      ensures Key(r[i]) <= Key(r[j])
    {
      assert r[j] == s[j - 1];
      if i > 0 {
        assert r[i] == s[i - 1];
      }
    }
  }

  /** The tail of a sorted sequence is sorted and bounded below by its head. */
  lemma SortedTail(s: seq<HistoryItem>)
    requires |s| > 0 && Sorted(s)
    ensures Sorted(s[1..]) && KeysAtLeast(s[1..], Key(s[0]))
  {
    var tail := s[1..];
    forall i | 0 <= i < |tail|
      ensures tail[i] == s[i + 1]
    {
    }
  }

  lemma {:induction false} InsertSorted(x: HistoryItem, s: seq<HistoryItem>)
    requires Sorted(s)
    ensures Sorted(Insert(x, s))
    decreases |s|
  {
    if |s| == 0 {
      assert Insert(x, s) == [x];
    } else if Key(x) < Key(s[0]) {
      assert Insert(x, s) == [x] + s;
      ConsSorted(x, s);
    } else {
      SortedTail(s);
      InsertSorted(x, s[1..]);
      InsertKeysAtLeast(x, s[1..], Key(s[0]));
      InsertPast(x, s);
      ConsSorted(s[0], Insert(x, s[1..]));
    }
  }

  /** Sorts the candidates by key; stands in for `qsort`, which leaves the order of equal keys
      unspecified. */
  function SortItems(items: seq<HistoryItem>): (r: seq<HistoryItem>)
    ensures |r| == |items|
    ensures Sorted(r)
    ensures multiset(r) == multiset(items)
    ensures forall y :: y in r ==> y in items
    ensures multiset(Labels(r)) == multiset(Labels(items))
  {
    if |items| == 0 then []
    else
      var front := items[..|items| - 1];
      SplitLast(items);
      assert Labels(items) == Labels(front) + [items[|items| - 1].originalLabel];
      var sortedFront := SortItems(front);
      InsertSorted(items[|items| - 1], sortedFront);
      InsertPermutes(items[|items| - 1], sortedFront);
      InsertLabels(items[|items| - 1], sortedFront);
      Insert(items[|items| - 1], sortedFront)
  }

  /** The candidates with their duplicate marks cleared: everything that sorting must carry
      along unchanged. */
  function Unmark(items: seq<HistoryItem>): (r: seq<HistoryItem>)
    ensures |r| == |items|
    ensures forall i :: 0 <= i < |items| ==> r[i] == items[i].(same := false)
  {
    seq(|items|, i requires 0 <= i < |items| => items[i].(same := false))
  }

  lemma UnmarkCons(x: HistoryItem, s: seq<HistoryItem>)
    ensures Unmark([x] + s) == [x.(same := false)] + Unmark(s)
  {
  }

  lemma UnmarkSnoc(s: seq<HistoryItem>, x: HistoryItem)
    ensures multiset(Unmark(s + [x])) == multiset(Unmark(s)) + multiset{x.(same := false)}
  {
    assert Unmark(s + [x]) == Unmark(s) + [x.(same := false)];
  }

  lemma {:induction false} InsertUnmark(x: HistoryItem, s: seq<HistoryItem>)
    ensures multiset(Unmark(Insert(x, s))) == multiset(Unmark(s)) + multiset{x.(same := false)}
    decreases |s|
  {
    if |s| == 0 {
      assert Unmark([x]) == [x.(same := false)];
    } else if Key(x) < Key(s[0]) {
      UnmarkCons(x, s);
    } else {
      var tail := s[1..];
      var rest := Insert(x, tail);
      SplitFirst(s);
      InsertPast(x, s);
      InsertUnmark(x, tail);
      UnmarkCons(s[0], tail);
      UnmarkCons(s[0], rest);
      assert multiset(Unmark(Insert(x, s))) == multiset{s[0].(same := false)} + multiset(Unmark(rest));
    }
  }

  /** Sorting moves whole candidates: windows, hashes, losses and labels travel together. */
  lemma {:induction false} SortItemsUnmark(items: seq<HistoryItem>)
    ensures multiset(Unmark(SortItems(items))) == multiset(Unmark(items))
    decreases |items|
  {
    if |items| > 0 {
      var front := items[..|items| - 1];
      var last := items[|items| - 1];
      SplitLast(items);
      UnmarkSnoc(front, last);
      SortItemsUnmark(front);
      InsertUnmark(last, SortItems(front));
    }
  }

  lemma {:induction false} InsertShaped(x: HistoryItem, s: seq<HistoryItem>, length: nat)
    requires Shaped(s, length) && |x.predictions| == length && x.hash == 0
    ensures Shaped(Insert(x, s), length)
    decreases |s|
  {
    if |s| > 0 && Key(x) >= Key(s[0]) {
      InsertShaped(x, s[1..], length);
    }
  }

  /** Sorting keeps every candidate's shape. */
  lemma {:induction false} SortItemsShaped(items: seq<HistoryItem>, length: nat)
    requires Shaped(items, length)
    ensures Shaped(SortItems(items), length)
    decreases |items|
  {
    if |items| > 0 {
      var front := items[..|items| - 1];
      SortItemsShaped(front, length);
      InsertShaped(items[|items| - 1], SortItems(front), length);
    }
  }

  /** Marks each item that compares equal to its predecessor; the first item is never marked. */
  function MarkEquality(items: seq<HistoryItem>, length: nat): (r: seq<HistoryItem>)
    requires length > 0 && Shaped(items, length)
    ensures |r| == |items|
    ensures Shaped(r, length)
    ensures Labels(r) == Labels(items)
    ensures forall i :: 0 <= i < |items| ==> r[i] == items[i].(same := r[i].same)
    ensures forall i :: 0 <= i < |items| ==> (r[i].same <==> i > 0 && Key(items[i]) == Key(items[i - 1]))
  {
    seq(|items|, i requires 0 <= i < |items| =>
      items[i].(same := i > 0 && OrderHistoryItem(items[i], items[i - 1]) == 0))
  }

  /** `sort_hcache_and_mark_equality`: a sorted permutation of the candidates (whole candidates,
      not just their labels) with `same[0]` false and `same[i]` set exactly when item i compares equal to item i-1. */
  function SortAndMarkEquality(items: seq<HistoryItem>, length: nat): (r: seq<HistoryItem>)
    requires length > 0 && Shaped(items, length)
    ensures |r| == |items|
    ensures Shaped(r, length)
    ensures Sorted(r)
    ensures multiset(Labels(r)) == multiset(Labels(items))
    ensures multiset(Unmark(r)) == multiset(Unmark(items))
    ensures forall i :: 0 <= i < |r| ==>
              (r[i].same <==> i > 0 && OrderHistoryItem(r[i], r[i - 1]) == 0)
  {
    var sorted := SortItems(items);
    SortItemsShaped(items, length);
    SortItemsUnmark(items);
    MarkSorted(sorted, length);
    var r := MarkEquality(sorted, length);
    assert Unmark(r) == Unmark(sorted);
    r
  }

  /** Every entry of the sorted and marked cache is one of the candidates it was built from,
      apart from its mark. */
  lemma SortAndMarkMember(items: seq<HistoryItem>, length: nat, i: nat)
    requires length > 0 && Shaped(items, length) && i < |items|
    ensures exists a :: 0 <= a < |items| &&
              SortAndMarkEquality(items, length)[i].(same := false) == items[a].(same := false)
  {
    var sorted := SortItems(items);
    SortItemsShaped(items, length);
    assert SortAndMarkEquality(items, length) == MarkEquality(sorted, length);
    assert sorted[i] in items;
  }

  /** Marking a sorted sequence keeps it sorted, and the marks agree with the comparator. */
  lemma MarkSorted(sorted: seq<HistoryItem>, length: nat)
    requires length > 0 && Shaped(sorted, length) && Sorted(sorted)
    ensures var r := MarkEquality(sorted, length);
            && Sorted(r)
            && forall i :: 0 <= i < |r| ==> (r[i].same <==> i > 0 && OrderHistoryItem(r[i], r[i - 1]) == 0)
  {
  }

  /** `hcache_all_equal`: every item after the first is marked as a duplicate. */
  predicate AllEqual(items: seq<HistoryItem>)
    ensures |items| <= 1 ==> AllEqual(items)
    ensures |items| > 0 ==> (AllEqual(items) <==> forall it :: it in items[1..] ==> it.same)
  {
    assert forall i :: 1 <= i < |items| ==> items[i] in items[1..];
    forall i :: 1 <= i < |items| ==> items[i].same
  }

  lemma {:induction false} AdjacentKeysChain(r: seq<HistoryItem>, i: nat)
    requires i < |r|
    requires forall j :: 1 <= j < |r| ==> Key(r[j]) == Key(r[j - 1])
    ensures Key(r[i]) == Key(r[0])
  {
    if i > 0 {
      AdjacentKeysChain(r, i - 1);
    }
  }

  /** After sorting and marking, all candidates are duplicates exactly when every candidate
      agrees on its most recent slot; in particular this always holds for at most one candidate. */
  lemma AllEqualIffOneKey(items: seq<HistoryItem>, length: nat)
    requires length > 0 && Shaped(items, length)
    ensures AllEqual(SortAndMarkEquality(items, length))
            <==> forall i, j :: 0 <= i < |items| && 0 <= j < |items| ==> Key(items[i]) == Key(items[j])
    ensures |items| <= 1 ==> AllEqual(SortAndMarkEquality(items, length))
  {
    if AllEqual(SortAndMarkEquality(items, length)) {
      AllEqualGivesOneKey(items, length);
    }
    if forall i, j :: 0 <= i < |items| && 0 <= j < |items| ==> Key(items[i]) == Key(items[j]) {
      OneKeyGivesAllEqual(items, length);
    }
  }

  lemma AllEqualGivesOneKey(items: seq<HistoryItem>, length: nat)
    requires length > 0 && Shaped(items, length)
    requires AllEqual(SortAndMarkEquality(items, length))
    ensures forall i, j :: 0 <= i < |items| && 0 <= j < |items| ==> Key(items[i]) == Key(items[j])
  {
    var sorted := SortItems(items);
    SortItemsShaped(items, length);
    assert SortAndMarkEquality(items, length) == MarkEquality(sorted, length);
    MarkedAdjacentKeys(sorted, length);
    forall i | 0 <= i < |items|
      ensures Key(items[i]) == Key(sorted[0])
    {
      assert items[i] in multiset(sorted);
      var a :| 0 <= a < |sorted| && sorted[a] == items[i];
      AdjacentKeysChain(sorted, a);
    }
  }

  lemma MarkedAdjacentKeys(sorted: seq<HistoryItem>, length: nat)
    requires length > 0 && Shaped(sorted, length)
    requires AllEqual(MarkEquality(sorted, length))
    ensures forall j :: 1 <= j < |sorted| ==> Key(sorted[j]) == Key(sorted[j - 1])
  {
  }

  lemma OneKeyGivesAllEqual(items: seq<HistoryItem>, length: nat)
    requires length > 0 && Shaped(items, length)
    requires forall i, j :: 0 <= i < |items| && 0 <= j < |items| ==> Key(items[i]) == Key(items[j])
    ensures AllEqual(SortAndMarkEquality(items, length))
  {
    var sorted := SortItems(items);
    var r := SortAndMarkEquality(items, length);
    assert r == MarkEquality(sorted, length);
    forall i | 1 <= i < |r|
      ensures r[i].same
    {
      assert sorted[i] in items && sorted[i - 1] in items;
    }
  }
}

=== FILE: trainer.dfy ===
/** The Searn training loop of one labelled sequence: the behaviour pass that picks a policy
    per position, then, for every position, rolling out one candidate per label, turning the
    candidates' losses into a cost vector, and emitting exactly one training example. */
module Trainer {
  import opened Base
  import opened History
  import opened Policy
  import opened RolloutCache

  /** The external learner: the label it predicts for position `pos` from a history window,
      under the weights of policy `policy`. */
  type Learner = (nat, History, int) -> nat

  /** The discount: an unsigned integer slot holding 1, and the option meant to set it writes
      the mixing parameter instead, so every rollout step is weighted by 1. */
  const SequenceGamma: nat := 1

  /** Class count, history window length, rollout length and mixing parameter. */
  datatype Config = Config(k: nat, historyLength: nat, rollout: nat, beta: real)

  /** The source indexes the first candidate and the newest history slot unconditionally. */
  predicate ValidConfig(cfg: Config)
  {
    cfg.k >= 1 && cfg.historyLength >= 1
  }

  /** The labelled sequence: true labels (1-based), example weights, and the behaviour policy
      chosen for each position. */
  datatype Trajectory = Trajectory(truth: seq<nat>, weights: seq<real>, policies: seq<int>)

  predicate ValidTrajectory(tr: Trajectory)
  {
    |tr.truth| >= 1 && |tr.weights| == |tr.truth| && |tr.policies| == |tr.truth|
  }

  /** `predict`: the oracle answers with the truth, any other policy asks the learner. */
  function Predict(learner: Learner, pos: nat, h: History, policy: int, truth: nat): (r: nat)
    ensures policy == Oracle ==> r == truth
    ensures policy != Oracle ==> r == learner(pos, h, policy)
  {
    if policy == Oracle then truth else learner(pos, h, policy)
  }

  function Indicator(b: bool): real { if b then 1.0 else 0.0 }

  /** The ranks behind the two draws of every position are in range whenever the draws are
      random. */
  predicate RanksValid(cfg: Config, currentPolicy: nat, behaviourRanks: seq<nat>, oracleRanks: seq<nat>)
  {
    && |oracleRanks| == |behaviourRanks|
    && (cfg.beta < 1.0 ==> forall t :: 0 <= t < |behaviourRanks| ==>
          RankInRange(currentPolicy, false, false, behaviourRanks[t])
          && RankInRange(currentPolicy, true, false, oracleRanks[t]))
  }

  /** The behaviour draw of one position (line 769): policy 0 before any policy is frozen,
      otherwise a frozen policy drawn without the oracle. */
  function BehaviourDraw(cfg: Config, currentPolicy: nat, rank: nat): (r: int)
    requires cfg.beta < 1.0 ==> RankInRange(currentPolicy, false, false, rank)
    ensures 0 <= r && (currentPolicy > 0 ==> r < currentPolicy)
    ensures currentPolicy == 0 ==> r == 0
  {
    if currentPolicy == 0 then 0 else RandomPolicy(cfg.beta, currentPolicy, false, false, rank)
  }

  /** The policy of one position (line 785): the oracle exactly when the oracle draw lands on
      it, otherwise the behaviour draw; a frozen policy is never the one being trained. */
  function DrawnPolicy(cfg: Config, currentPolicy: nat, behaviourRank: nat, oracleRank: nat): (r: int)
    requires cfg.beta < 1.0 ==> (RankInRange(currentPolicy, false, false, behaviourRank)
                                 && RankInRange(currentPolicy, true, false, oracleRank))
    ensures r == Oracle || 0 <= r < currentPolicy
    ensures currentPolicy == 0 ==> r == Oracle
    ensures r != Oracle ==> r == BehaviourDraw(cfg, currentPolicy, behaviourRank)
    ensures currentPolicy > 0 && cfg.beta < 1.0 ==> (r == Oracle <==> oracleRank == currentPolicy)
    ensures currentPolicy > 0 && cfg.beta >= 1.0 ==> r != Oracle
  {
    if currentPolicy == 0 then FirstEpochPicksOracle(cfg.beta, oracleRank); Oracle
    else if RandomPolicy(cfg.beta, currentPolicy, true, false, oracleRank) == Oracle then Oracle
    else BehaviourDraw(cfg, currentPolicy, behaviourRank)
  }

  /** The drawn policies of the first `n` positions. */
  function DrawnPolicies(cfg: Config, currentPolicy: nat, behaviourRanks: seq<nat>, oracleRanks: seq<nat>,
                         n: nat): (r: seq<int>)
    requires RanksValid(cfg, currentPolicy, behaviourRanks, oracleRanks) && n <= |behaviourRanks|
    ensures |r| == n
  {
    if n == 0 then []
    else DrawnPolicies(cfg, currentPolicy, behaviourRanks, oracleRanks, n - 1)
         + [DrawnPolicy(cfg, currentPolicy, behaviourRanks[n - 1], oracleRanks[n - 1])]
  }

  /** Position by position, the drawn policies are the draws of that position. */
  lemma {:induction false} DrawnPoliciesAt(cfg: Config, currentPolicy: nat, behaviourRanks: seq<nat>,
                                           oracleRanks: seq<nat>, n: nat)
    requires RanksValid(cfg, currentPolicy, behaviourRanks, oracleRanks) && n <= |behaviourRanks|
    ensures forall t :: 0 <= t < n ==>
              DrawnPolicies(cfg, currentPolicy, behaviourRanks, oracleRanks, n)[t]
              == DrawnPolicy(cfg, currentPolicy, behaviourRanks[t], oracleRanks[t])
    decreases n
  {
    if n > 0 {
      DrawnPoliciesAt(cfg, currentPolicy, behaviourRanks, oracleRanks, n - 1);
    }
  }

  /** The behaviour draw of every position. */
  function BehaviourDraws(cfg: Config, currentPolicy: nat, behaviourRanks: seq<nat>): (r: seq<int>)
    requires cfg.beta < 1.0 ==> forall t :: 0 <= t < |behaviourRanks| ==>
               RankInRange(currentPolicy, false, false, behaviourRanks[t])
    ensures |r| == |behaviourRanks|
    ensures forall t :: 0 <= t < |r| ==> r[t] == BehaviourDraw(cfg, currentPolicy, behaviourRanks[t])
  {
    seq(|behaviourRanks|, t requires 0 <= t < |behaviourRanks| => BehaviourDraw(cfg, currentPolicy, behaviourRanks[t]))
  }

  /** The learner run left to right over the first `n` positions, each under its own policy
      and predicting from the window of the predictions before it. */
  function LearnerRun(learner: Learner, length: nat, policies: seq<int>, n: nat): (r: seq<nat>)
    requires n <= |policies|
    ensures |r| == n
  {
    if n == 0 then []
    else
      var before := LearnerRun(learner, length, policies, n - 1);
      before + [learner(n - 1, AppendAll(Clear(length), before), policies[n - 1])]
  }

  /** A longer run starts with the shorter one. */
  lemma {:induction false} LearnerRunPrefix(learner: Learner, length: nat, policies: seq<int>, n: nat, m: nat)
    requires m <= n <= |policies|
    ensures LearnerRun(learner, length, policies, n)[..m] == LearnerRun(learner, length, policies, m)
    decreases n
  {
    if m < n {
      LearnerRunPrefix(learner, length, policies, n - 1, m);
      var before := LearnerRun(learner, length, policies, n - 1);
      assert LearnerRun(learner, length, policies, n)[..n - 1] == before;
      assert LearnerRun(learner, length, policies, n)[..m] == before[..m];
    }
  }

  /** Every prediction of a run is the learner's answer at its position, under its policy, on
      the window of the run's own earlier predictions. */
  lemma LearnerRunWindowed(learner: Learner, length: nat, policies: seq<int>, n: nat)
    requires n <= |policies|
    ensures forall t :: 0 <= t < n ==>
              LearnerRun(learner, length, policies, n)[t]
              == learner(t, AppendAll(Clear(length), LearnerRun(learner, length, policies, n)[..t]), policies[t])
  {
    var r := LearnerRun(learner, length, policies, n);
    forall t | 0 <= t < n
      ensures r[t] == learner(t, AppendAll(Clear(length), r[..t]), policies[t])
    {
      LearnerRunPrefix(learner, length, policies, n, t + 1);
      LearnerRunPrefix(learner, length, policies, n, t);
      assert r[t] == r[..t + 1][t];
    }
  }

  /** One position of the behaviour pass (lines 769-786): the behaviour draw predicts from the
      window, and the oracle draw may then replace the policy by the oracle. */
  method BehaviourStep(cfg: Config, currentPolicy: nat, learner: Learner, t: nat, h: History,
                       behaviourRank: nat, oracleRank: nat)
    returns (chosen: int, yhat: nat)
    requires cfg.beta < 1.0 ==> (RankInRange(currentPolicy, false, false, behaviourRank)
                                 && RankInRange(currentPolicy, true, false, oracleRank))
    ensures chosen == DrawnPolicy(cfg, currentPolicy, behaviourRank, oracleRank)
    ensures yhat == learner(t, h, BehaviourDraw(cfg, currentPolicy, behaviourRank))
  {
    var behaviour := BehaviourDraw(cfg, currentPolicy, behaviourRank);
    yhat := Predict(learner, t, h, behaviour, SizeMax);
    chosen := if RandomPolicy(cfg.beta, currentPolicy, true, false, oracleRank) == Oracle
              then Oracle else behaviour;
  }

  /** One policy choice per position: before the first policy is frozen every position is
      handed to the oracle, and otherwise a position keeps a frozen policy unless the oracle
      is drawn. The predictions of this pass always come from the learner under the behaviour
      draw, even where the oracle is drawn afterwards. */
  method BehaviourPass(cfg: Config, currentPolicy: nat, learner: Learner,
                       behaviourRanks: seq<nat>, oracleRanks: seq<nat>)
    returns (policies: seq<int>, preds: seq<nat>)
    requires ValidConfig(cfg)
    requires RanksValid(cfg, currentPolicy, behaviourRanks, oracleRanks)
    ensures |policies| == |behaviourRanks| && |preds| == |behaviourRanks|
    ensures policies == DrawnPolicies(cfg, currentPolicy, behaviourRanks, oracleRanks, |behaviourRanks|)
    ensures forall t :: 0 <= t < |policies| ==>
              policies[t] == DrawnPolicy(cfg, currentPolicy, behaviourRanks[t], oracleRanks[t])
    ensures forall t :: 0 <= t < |policies| ==>
              policies[t] == Oracle || 0 <= policies[t] < currentPolicy
    ensures currentPolicy == 0 ==> forall t :: 0 <= t < |policies| ==> policies[t] == Oracle
    ensures preds == LearnerRun(learner, cfg.historyLength, BehaviourDraws(cfg, currentPolicy, behaviourRanks),
                                |behaviourRanks|)
    ensures forall t :: 0 <= t < |preds| ==>
              preds[t] == learner(t, AppendAll(Clear(cfg.historyLength), preds[..t]),
                                  BehaviourDraw(cfg, currentPolicy, behaviourRanks[t]))
  {
    var draws := BehaviourDraws(cfg, currentPolicy, behaviourRanks);
    var n := |behaviourRanks|;
    var h := Clear(cfg.historyLength);
    policies, preds := [], [];
    var t := 0;
    while t < n
      invariant 0 <= t <= n && |policies| == t && |preds| == t
      invariant h == AppendAll(Clear(cfg.historyLength), preds)
      invariant policies == DrawnPolicies(cfg, currentPolicy, behaviourRanks, oracleRanks, t)
      invariant preds == LearnerRun(learner, cfg.historyLength, draws, t)
    {
      var chosen, yhat := BehaviourStep(cfg, currentPolicy, learner, t, h, behaviourRanks[t], oracleRanks[t]);
      assert LearnerRun(learner, cfg.historyLength, draws, t + 1) == preds + [yhat];
      policies, preds := policies + [chosen], preds + [yhat];
      h := Append(h, yhat);
      t := t + 1;
    }
    DrawnPoliciesAt(cfg, currentPolicy, behaviourRanks, oracleRanks, n);
    LearnerRunWindowed(learner, cfg.historyLength, draws, n);
  }

  /** `all_policies_optimal`: no position uses a learned policy. */
  predicate AllOptimal(policies: seq<int>)
    ensures AllOptimal(policies) <==> forall p :: p in policies ==> p < 0
  {
    assert forall i :: 0 <= i < |policies| ==> policies[i] in policies;
    forall p :: 0 <= p < |policies| ==> policies[p] < 0
  }

  /** The rollout horizon at position `t`: at most `rollout` positions past t, and cut back to
      just after the last position whose behaviour policy is learned, since from there on the
      oracle reproduces the truth. */
  method RolloutHorizon(policies: seq<int>, t: nat, rollout: nat) returns (endPos: nat)
    requires t < |policies|
    ensures t <= endPos <= Min(|policies|, t + 1 + rollout)
    ensures AllOptimal(policies) ==> endPos == t + 1
    ensures !AllOptimal(policies) ==> (endPos > t ==> policies[endPos - 1] >= 0)
    ensures !AllOptimal(policies) ==>
              forall p :: endPos <= p < Min(|policies|, t + 1 + rollout) ==> policies[p] < 0
  {
    var n := |policies|;
    endPos := if n < t + 1 + rollout then n else t + 1 + rollout;
    if AllOptimal(policies) {
      endPos := t + 1;
    } else {
      while endPos >= t + 1
        invariant t <= endPos <= Min(n, t + 1 + rollout)
        invariant forall p :: endPos <= p < Min(n, t + 1 + rollout) ==> policies[p] < 0
        decreases endPos
      {
        if policies[endPos - 1] >= 0 {
          break;
        }
        endPos := endPos - 1;
      }
    }
  }

  function Range(k: nat): (r: seq<nat>)
    ensures |r| == k && forall i :: 0 <= i < k ==> r[i] == i
  {
    seq(k, i requires 0 <= i < k => i)
  }

  /** The candidates' original labels are a permutation of 0 .. k-1. */
  predicate LabelPerm(items: seq<HistoryItem>, k: nat)
  {
    && |items| == k
    && (forall i :: 0 <= i < k ==> items[i].originalLabel < k)
    && multiset(Labels(items)) == multiset(Range(k))
  }

  lemma DistinctCount(s: seq<nat>, x: nat)
    requires forall i, j :: 0 <= i < j < |s| ==> s[i] != s[j]
    ensures multiset(s)[x] <= 1
  {
    if |s| > 0 {
      var front := s[..|s| - 1];
      assert s == front + [s[|s| - 1]];
      DistinctCount(front, x);
      if x == s[|s| - 1] {
        assert x !in front;
      }
    }
  }

  lemma DuplicateCount(s: seq<nat>, i: nat, j: nat)
    requires i < j < |s| && s[i] == s[j]
    ensures multiset(s)[s[i]] >= 2
  {
    assert s == s[..j] + [s[j]] + s[j + 1..];
    assert s[i] in s[..j];
  }

  /** A multiset of labels equal to that of 0 .. k-1 already bounds every label. */
  lemma LabelPermFromMultiset(items: seq<HistoryItem>, k: nat)
    requires |items| == k && multiset(Labels(items)) == multiset(Range(k))
    ensures LabelPerm(items, k)
  {
    forall i | 0 <= i < k
      ensures items[i].originalLabel < k
    {
      assert Labels(items)[i] in multiset(Range(k));
    }
  }

  /** A label permutation: no two candidates share a label, and every label 0 .. k-1 belongs
      to some candidate. */
  lemma LabelPermFacts(items: seq<HistoryItem>, k: nat)
    requires LabelPerm(items, k)
    ensures forall i, j :: 0 <= i < j < k ==> items[i].originalLabel != items[j].originalLabel
    ensures forall l :: 0 <= l < k ==> l in Labels(items)
  {
    var labels := Labels(items);
    var range := Range(k);
    forall i, j | 0 <= i < j < k
      ensures items[i].originalLabel != items[j].originalLabel
    {
      if labels[i] == labels[j] {
        DuplicateCount(labels, i, j);
        DistinctCount(range, labels[i]);
        assert false;
      }
    }
    forall l | 0 <= l < k
      ensures l in labels
    {
      assert range[l] in multiset(labels);
    }
  }

  /** The candidate for 0-based label `i`: an all-zero window that then asserts label i+1,
      with the loss of that label at this position already counted. */
  function Seed(length: nat, truth: nat, weight: real, i: nat): (c: HistoryItem)
    requires length >= 1
    ensures |c.predictions| == length && c.hash == 0 && !c.same && c.originalLabel == i
    ensures c.predictions == Clear(length - 1) + [i + 1] && LastPrediction(c.predictions) == i + 1
    ensures c.loss == (if i + 1 == truth then 0.0 else weight)
  {
    AppendHistoryItem(HistoryItem(Clear(length), 0, weight * Indicator(i + 1 != truth), i, false), i + 1)
  }

  /** One candidate per label. */
  function SeedCandidates(k: nat, length: nat, truth: nat, weight: real): (items: seq<HistoryItem>)
    requires length >= 1
    ensures |items| == k && Shaped(items, length)
    ensures Labels(items) == Range(k) && LabelPerm(items, k)
    ensures forall i :: 0 <= i < k ==>
              && items[i].predictions == Clear(length - 1) + [i + 1]
              && LastPrediction(items[i].predictions) == i + 1
              && !items[i].same
              && items[i].loss == (if i + 1 == truth then 0.0 else weight)
  {
    var items := seq(k, i requires 0 <= i < k => Seed(length, truth, weight, i));
    assert forall i :: 0 <= i < k ==> items[i] == Seed(length, truth, weight, i);
    assert Labels(items) == Range(k);
    items
  }

  /** What one rollout step needs to know about its position. */
  datatype Step = Step(t: nat, t2: nat, policy: int, truth: nat, weight: real, gamma: real, predT: nat)

  /** The loss a candidate is charged at this step when its label is wrong. */
  function Charge(st: Step): real
  {
    st.gamma * st.weight
  }

  datatype StepOut = StepOut(items: seq<HistoryItem>, lastNew: nat, predNext: nat)

  /** Whether a step may start at index `i`: the shapes agree, the first candidate is never a
      duplicate, and the last fresh candidate is an earlier one holding the history that
      candidate i-1 holds. */
  predicate StepReady(items: seq<HistoryItem>, i: nat, lastNew: nat, length: nat)
  {
    && length >= 1 && Shaped(items, length) && i <= |items|
    && (0 < |items| ==> !items[0].same)
    && (0 < i ==> lastNew < i && items[i - 1].predictions == items[lastNew].predictions)
  }

  /** Whether candidate `it` is the one whose newest label is the realised prediction at t, on
      the first rollout step (the test `prediction_matches_history`). */
  predicate Matches(st: Step, it: HistoryItem)
  {
    |it.predictions| > 0 && st.t2 == st.t + 1 && LastPrediction(it.predictions) == st.predT
  }

  /** The loop body of lines 846-873 for candidate `i`: the candidate advances, a fresh one
      becomes the last fresh index, and a candidate on the realised path records its new newest
      label as the realised prediction for t+1. */
  function StepAt(learner: Learner, st: Step, items: seq<HistoryItem>, i: nat,
                  lastNew: nat, predNext: nat, length: nat): (r: StepOut)
    requires StepReady(items, i, lastNew, length) && i < |items|
    ensures |r.items| == |items| && StepReady(r.items, i + 1, r.lastNew, length)
    ensures Labels(r.items) == Labels(items)
    ensures forall j :: 0 <= j < |items| && j != i ==> r.items[j] == items[j]
    ensures r.items[i] == AdvanceCandidate(learner, st, items[i], if items[i].same then items[lastNew] else items[i])
    ensures r.lastNew == (if items[i].same then lastNew else i)
    ensures r.predNext == (if Matches(st, items[i]) then LastPrediction(r.items[i].predictions) else predNext)
  {
    var it := items[i];
    var src := if it.same then items[lastNew] else it;
    var done := AdvanceCandidate(learner, st, it, src);
    var next := if Matches(st, it) then LastPrediction(done.predictions) else predNext;
    var items' := items[i := done];
    assert |done.predictions| == length && done.hash == 0 && !done.same;
    assert Shaped(items', length);
    assert Labels(items') == Labels(items);
    StepOut(items', if it.same then lastNew else i, next)
  }

  /** One rollout step over the sorted, marked candidates from index `i` on: a fresh candidate
      asks its policy for the next label; a duplicate takes the history of the last fresh one
      and is charged that candidate's label. The candidate whose newest label is the realised
      prediction at t records the realised prediction for t+1. */
  function UpdateItems(learner: Learner, st: Step, items: seq<HistoryItem>, i: nat,
                       lastNew: nat, predNext: nat, length: nat): (r: StepOut)
    requires StepReady(items, i, lastNew, length)
    ensures |r.items| == |items| && Shaped(r.items, length)
    ensures Labels(r.items) == Labels(items)
    ensures forall j :: 0 <= j < i ==> r.items[j] == items[j]
    ensures 0 < |items| ==> r.lastNew < |items|
    ensures i == |items| ==> r == StepOut(items, lastNew, predNext)
    decreases |items| - i
  {
    if i == |items| then StepOut(items, lastNew, predNext)
    else
      var s := StepAt(learner, st, items, i, lastNew, predNext, length);
      UpdateItems(learner, st, s.items, i + 1, s.lastNew, s.predNext, length)
  }

  /** From index `from` on, every candidate is unmarked and was charged one step's loss
      exactly when its new newest label is not the truth. */
  predicate ChargedOnMismatch(before: seq<HistoryItem>, after: seq<HistoryItem>, from: nat, st: Step)
    requires |after| == |before|
  {
    forall j :: from <= j < |before| ==> ChargedFor(before[j], after[j], st)
  }

  /** One candidate after a step: unmarked, and charged one step's loss exactly when its newest
      label is not the truth. */
  predicate ChargedFor(before: HistoryItem, after: HistoryItem, st: Step)
  {
    && !after.same
    && |after.predictions| > 0
    && after.loss == before.loss + Charge(st) * Indicator(LastPrediction(after.predictions) != st.truth)
  }

  /** After a step every candidate is unmarked, and each was charged one step's loss exactly
      when the label it now ends in (its own prediction, or the one it copied) is wrong. */
  lemma {:induction false} UpdateItemsCharges(learner: Learner, st: Step, items: seq<HistoryItem>, i: nat,
                                              lastNew: nat, predNext: nat, length: nat)
    requires StepReady(items, i, lastNew, length)
    ensures ChargedOnMismatch(items, UpdateItems(learner, st, items, i, lastNew, predNext, length).items, i, st)
    decreases |items| - i
  {
    if i < |items| {
      var s := StepAt(learner, st, items, i, lastNew, predNext, length);
      UpdateItemsCharges(learner, st, s.items, i + 1, s.lastNew, s.predNext, length);
      var r := UpdateItems(learner, st, s.items, i + 1, s.lastNew, s.predNext, length);
      forall j | i <= j < |items|
        ensures ChargedFor(items[j], r.items[j], st)
      {
        if j > i {
          assert s.items[j] == items[j];
        } else {
          assert r.items[i] == s.items[i];
        }
      }
    }
  }

  /** From index `from` on, every candidate marked as equal to its predecessor ends with its
      predecessor's history. */
  predicate DuplicatesShare(before: seq<HistoryItem>, after: seq<HistoryItem>, from: nat)
    requires |after| == |before|
  {
    forall j :: from <= j < |before| && 0 < j && before[j].same ==>
      after[j].predictions == after[j - 1].predictions
  }

  /** Duplicates are simulated once: after a step, a candidate that was marked as equal to its
      predecessor holds exactly its predecessor's new history. */
  lemma {:induction false} UpdateItemsSharesDuplicates(learner: Learner, st: Step, items: seq<HistoryItem>,
                                                       i: nat, lastNew: nat, predNext: nat, length: nat)
    requires StepReady(items, i, lastNew, length)
    ensures DuplicatesShare(items, UpdateItems(learner, st, items, i, lastNew, predNext, length).items, i)
    decreases |items| - i
  {
    if i < |items| {
      var s := StepAt(learner, st, items, i, lastNew, predNext, length);
      UpdateItemsSharesDuplicates(learner, st, s.items, i + 1, s.lastNew, s.predNext, length);
      var r := UpdateItems(learner, st, s.items, i + 1, s.lastNew, s.predNext, length);
      forall j | i <= j < |items| && 0 < j && items[j].same
        ensures r.items[j].predictions == r.items[j - 1].predictions
      {
        if j == i {
          assert r.items[i] == s.items[i] && r.items[i - 1] == items[i - 1];
        } else {
          assert s.items[j] == items[j];
        }
      }
    }
  }

  /** From index `from` on, every candidate that was not marked appended its own policy's
      prediction on its own window. */
  predicate FreshAdvanced(learner: Learner, st: Step, before: seq<HistoryItem>, after: seq<HistoryItem>, from: nat)
    requires |after| == |before|
  {
    forall j :: from <= j < |before| && !before[j].same ==>
      after[j].predictions
      == Append(before[j].predictions, Predict(learner, st.t2, before[j].predictions, st.policy, st.truth))
  }

  /** A fresh candidate is simulated: its policy predicts from its own window, and the
      prediction becomes its newest label. */
  lemma {:induction false} UpdateItemsAdvancesFresh(learner: Learner, st: Step, items: seq<HistoryItem>, i: nat,
                                                    lastNew: nat, predNext: nat, length: nat)
    requires StepReady(items, i, lastNew, length)
    ensures FreshAdvanced(learner, st, items, UpdateItems(learner, st, items, i, lastNew, predNext, length).items, i)
    decreases |items| - i
  {
    if i < |items| {
      var s := StepAt(learner, st, items, i, lastNew, predNext, length);
      UpdateItemsAdvancesFresh(learner, st, s.items, i + 1, s.lastNew, s.predNext, length);
      var r := UpdateItems(learner, st, s.items, i + 1, s.lastNew, s.predNext, length);
      forall j | i <= j < |items| && !items[j].same
        ensures r.items[j].predictions
                == Append(items[j].predictions, Predict(learner, st.t2, items[j].predictions, st.policy, st.truth))
      {
        if j > i {
          assert s.items[j] == items[j];
        }
      }
    }
  }

  /** No candidate from index `from` on is on the realised path. */
  predicate NoMatchFrom(st: Step, items: seq<HistoryItem>, from: nat)
  {
    forall j :: from <= j < |items| ==> !Matches(st, items[j])
  }

  /** The recovery of the realised prediction for t+1 (lines 871-873): when no candidate is on
      the realised path the value passed in is kept; otherwise it is the new newest label of the
      last candidate on that path. */
  lemma {:induction false} UpdateItemsKeepsPrediction(learner: Learner, st: Step, items: seq<HistoryItem>, i: nat,
                                                      lastNew: nat, predNext: nat, length: nat)
    requires StepReady(items, i, lastNew, length)
    ensures NoMatchFrom(st, items, i) ==>
              UpdateItems(learner, st, items, i, lastNew, predNext, length).predNext == predNext
    decreases |items| - i
  {
    if i < |items| && NoMatchFrom(st, items, i) {
      var s := StepAt(learner, st, items, i, lastNew, predNext, length);
      forall j | i < j < |items|
        ensures !Matches(st, s.items[j])
      {
        assert s.items[j] == items[j];
      }
      UpdateItemsKeepsPrediction(learner, st, s.items, i + 1, s.lastNew, s.predNext, length);
    }
  }

  lemma {:induction false} UpdateItemsRecovers(learner: Learner, st: Step, items: seq<HistoryItem>, i: nat,
                                               lastNew: nat, predNext: nat, length: nat)
    requires StepReady(items, i, lastNew, length)
    ensures forall j :: i <= j < |items| && Matches(st, items[j]) && NoMatchFrom(st, items, j + 1) ==>
              var r := UpdateItems(learner, st, items, i, lastNew, predNext, length);
              r.predNext == LastPrediction(r.items[j].predictions)
    decreases |items| - i
  {
    if i < |items| {
      var s := StepAt(learner, st, items, i, lastNew, predNext, length);
      UpdateItemsRecovers(learner, st, s.items, i + 1, s.lastNew, s.predNext, length);
      var r := UpdateItems(learner, st, s.items, i + 1, s.lastNew, s.predNext, length);
      assert UpdateItems(learner, st, items, i, lastNew, predNext, length) == r;
      forall j | i < j < |items|
        ensures s.items[j] == items[j]
      {
      }
      forall j | i <= j < |items| && Matches(st, items[j]) && NoMatchFrom(st, items, j + 1)
        ensures r.predNext == LastPrediction(r.items[j].predictions)
      {
        assert NoMatchFrom(st, s.items, j + 1);
        if j == i {
          UpdateItemsKeepsPrediction(learner, st, s.items, i + 1, s.lastNew, s.predNext, length);
          assert r.items[i] == s.items[i];
        } else {
          assert Matches(st, s.items[j]);
        }
      }
    }
  }

  /** Simulating one candidate on its own, with nothing shared: its policy predicts from its
      own window, the prediction is appended, and it is charged when the prediction is wrong. */
  function SimulateAlone(learner: Learner, st: Step, it: HistoryItem): (r: HistoryItem)
    requires |it.predictions| > 0
    ensures |r.predictions| == |it.predictions| && !r.same
    ensures r.originalLabel == it.originalLabel && r.hash == it.hash
  {
    var y := Predict(learner, st.t2, it.predictions, st.policy, st.truth);
    it.(predictions := Append(it.predictions, y),
        loss := it.loss + Charge(st) * Indicator(y != st.truth),
        same := false)
  }

  /** Every marked candidate holds exactly its predecessor's window, so copying loses nothing. */
  predicate MarksExact(items: seq<HistoryItem>)
  {
    forall j :: 0 < j < |items| && items[j].same ==> items[j].predictions == items[j - 1].predictions
  }

  /** Sharing is exact when the marks are: if every marked candidate holds its predecessor's
      window, a step gives every candidate the window and loss of simulating it alone. The
      candidates before `i` are already stepped, those from `i` on not yet. */
  lemma {:induction false} UpdateItemsMatchesAlone(learner: Learner, st: Step, orig: seq<HistoryItem>,
                                                   items: seq<HistoryItem>, i: nat, lastNew: nat,
                                                   predNext: nat, length: nat)
    requires StepReady(items, i, lastNew, length) && |orig| == |items|
    requires Shaped(orig, length) && MarksExact(orig)
    requires forall j :: 0 <= j < i ==> items[j] == SimulateAlone(learner, st, orig[j])
    requires forall j :: i <= j < |items| ==> items[j] == orig[j]
    ensures forall j :: 0 <= j < |items| ==>
              UpdateItems(learner, st, items, i, lastNew, predNext, length).items[j] == SimulateAlone(learner, st, orig[j])
    decreases |items| - i
  {
    if i < |items| {
      var s := StepAt(learner, st, items, i, lastNew, predNext, length);
      if orig[i].same {
        assert i > 0;
        var lead := SimulateAlone(learner, st, orig[i - 1]);
        assert items[lastNew].predictions == lead.predictions;
        assert orig[i].predictions == orig[i - 1].predictions;
        assert s.items[i].predictions == SimulateAlone(learner, st, orig[i]).predictions;
      }
      assert s.items[i] == SimulateAlone(learner, st, orig[i]);
      UpdateItemsMatchesAlone(learner, st, orig, s.items, i + 1, s.lastNew, s.predNext, length);
    }
  }

  /** With a window of one slot, the comparator's key is the whole window, so the marks of a
      sorted cache are exact. */
  lemma SingleSlotMarksExact(items: seq<HistoryItem>)
    requires Shaped(items, 1)
    ensures MarksExact(SortAndMarkEquality(items, 1))
  {
  }

  /** With a window of one slot, one rollout step over the sorted and marked cache gives every
      candidate exactly what simulating it alone would: duplicates are simulated once without
      changing any window or loss. */
  lemma SingleSlotStepSimulatesEachAlone(learner: Learner, st: Step, items: seq<HistoryItem>,
                                         lastNew: nat, predNext: nat)
    requires Shaped(items, 1)
    ensures var marked := SortAndMarkEquality(items, 1);
            forall j :: 0 <= j < |marked| ==>
              UpdateItems(learner, st, marked, 0, lastNew, predNext, 1).items[j] == SimulateAlone(learner, st, marked[j])
  {
    var marked := SortAndMarkEquality(items, 1);
    SingleSlotMarksExact(items);
    UpdateItemsMatchesAlone(learner, st, marked, marked, 0, lastNew, predNext, 1);
  }

  /** A policy that answers with the oldest slot of its window. */
  function ReadOldestSlot(pos: nat, h: History, policy: int): nat
  {
    if |h| > 0 then h[0] else 0
  }

  /** Two candidates ending in the same label but differing in the older slot. */
  function TwoSlotCache(): seq<HistoryItem>
  {
    [HistoryItem([1, 3], 0, 0.0, 0, false), HistoryItem([2, 3], 0, 0.0, 1, false)]
  }

  /** The comparator looks only at the newest slot, so the second candidate is marked. */
  lemma TwoSlotCacheMarks()
    ensures MarkEquality(TwoSlotCache(), 2)
            == [HistoryItem([1, 3], 0, 0.0, 0, false), HistoryItem([2, 3], 0, 0.0, 1, true)]
  {
  }

  /** The leader's step on the marked two-slot cache: it appends the older slot 1 and is charged. */
  lemma TwoSlotLeaderStep()
    ensures var marked := [HistoryItem([1, 3], 0, 0.0, 0, false), HistoryItem([2, 3], 0, 0.0, 1, true)];
            var st := Step(0, 1, 0, 9, 1.0, 1.0, 0);
            UpdateItems(ReadOldestSlot, st, marked, 0, 0, 0, 2)
            == UpdateItems(ReadOldestSlot, st, [HistoryItem([3, 1], 0, 1.0, 0, false), marked[1]], 1, 0, 0, 2)
  {
    var marked := [HistoryItem([1, 3], 0, 0.0, 0, false), HistoryItem([2, 3], 0, 0.0, 1, true)];
    var st := Step(0, 1, 0, 9, 1.0, 1.0, 0);
    var r0 := StepAt(ReadOldestSlot, st, marked, 0, 0, 0, 2);
    assert Append([1, 3], 1) == [3, 1];
    assert r0.items[0] == HistoryItem([3, 1], 0, 1.0, 0, false) && r0.items[1] == marked[1];
    assert r0 == StepOut([HistoryItem([3, 1], 0, 1.0, 0, false), marked[1]], 0, 0);
  }

  /** The duplicate's step: it copies the leader's window and loss, and the pass ends. */
  lemma TwoSlotDuplicateStep()
    ensures var lead := HistoryItem([3, 1], 0, 1.0, 0, false);
            var dup := HistoryItem([2, 3], 0, 0.0, 1, true);
            UpdateItems(ReadOldestSlot, Step(0, 1, 0, 9, 1.0, 1.0, 0), [lead, dup], 1, 0, 0, 2).items
            == [lead, HistoryItem([3, 1], 0, 1.0, 1, false)]
  {
    var lead := HistoryItem([3, 1], 0, 1.0, 0, false);
    var dup := HistoryItem([2, 3], 0, 0.0, 1, true);
    var st := Step(0, 1, 0, 9, 1.0, 1.0, 0);
    var r1 := StepAt(ReadOldestSlot, st, [lead, dup], 1, 0, 0, 2);
    var s1 := [lead, HistoryItem([3, 1], 0, 1.0, 1, false)];
    assert r1.items[0] == lead && r1.items[1] == s1[1];
    assert r1 == StepOut(s1, 0, 0);
    assert UpdateItems(ReadOldestSlot, st, s1, 2, 0, 0, 2) == StepOut(s1, 0, 0);
  }

  /** On its own the duplicate appends its own older slot 2. */
  lemma TwoSlotDuplicateAlone()
    ensures SimulateAlone(ReadOldestSlot, Step(0, 1, 0, 9, 1.0, 1.0, 0), HistoryItem([2, 3], 0, 0.0, 1, true)).predictions
            == [3, 2]
  {
    assert Append([2, 3], 2) == [3, 2];
  }

  /** With two slots the marks are not exact: the two candidates of `TwoSlotCache` are grouped,
      and under a policy that reads the older slot the duplicate is handed the leader's window
      [3, 1] instead of the [3, 2] it reaches on its own. */
  lemma TwoSlotSharingDiffersFromAlone()
    ensures var marked := MarkEquality(TwoSlotCache(), 2);
            var st := Step(0, 1, 0, 9, 1.0, 1.0, 0);
            && marked[1].same
            && UpdateItems(ReadOldestSlot, st, marked, 0, 0, 0, 2).items[1].predictions == [3, 1]
            && SimulateAlone(ReadOldestSlot, st, marked[1]).predictions == [3, 2]
  {
    TwoSlotCacheMarks();
    TwoSlotLeaderStep();
    TwoSlotDuplicateStep();
    TwoSlotDuplicateAlone();
  }

  /** One candidate's step: a fresh candidate appends its policy's prediction and is charged
      for it; a duplicate takes `src`'s history and is charged for `src`'s newest label. */
  function AdvanceCandidate(learner: Learner, st: Step, it: HistoryItem, src: HistoryItem): (r: HistoryItem)
    requires |it.predictions| > 0 && |src.predictions| == |it.predictions|
    ensures |r.predictions| == |it.predictions| && !r.same && r.originalLabel == it.originalLabel
    ensures r.hash == (if it.same then src.hash else it.hash)
    ensures it.same ==> r.predictions == src.predictions
    ensures !it.same ==>
              r.predictions == Append(it.predictions, Predict(learner, st.t2, it.predictions, st.policy, st.truth))
    ensures r.loss == it.loss + Charge(st) * Indicator(LastPrediction(r.predictions) != st.truth)
  {
    var updated :=
      if it.same then
        it.(predictions := src.predictions, hash := src.hash,
            loss := it.loss + Charge(st) * Indicator(LastPrediction(src.predictions) != st.truth))
      else
        var yhat := Predict(learner, st.t2, it.predictions, st.policy, st.truth);
        var appended := AppendHistoryItem(it, yhat);
        appended.(loss := appended.loss + Charge(st) * Indicator(yhat != st.truth));
    updated.(same := false)
  }

  /** Where a rollout ended: the candidates, the last fresh index, the realised prediction for
      t+1, whether a step was simulated, and the step `reached` at which it stopped. */
  datatype RolloutOut = RolloutOut(items: seq<HistoryItem>, lastNew: nat, predNext: nat, entered: bool,
                                   reached: nat)

  /** The rollout at position `t` from step `t2` up to the horizon: before every step the
      candidates are sorted and marked, and the rollout stops early once all of them agree.
      It counts as entered once one step has been simulated; until then the candidates are
      only reordered, with their windows and losses untouched. It stops at the horizon
      `endPos` or, earlier, only at a step where the sorted cache is all duplicates. */
  function Rollout(learner: Learner, cfg: Config, tr: Trajectory, t: nat, predT: nat,
                   items: seq<HistoryItem>, t2: nat, endPos: nat, gamma: real,
                   lastNew: nat, predNext: nat, entered: bool): (r: RolloutOut)
    requires ValidConfig(cfg) && ValidTrajectory(tr) && endPos <= |tr.truth|
    requires |items| == cfg.k && Shaped(items, cfg.historyLength)
    ensures |r.items| == cfg.k && Shaped(r.items, cfg.historyLength)
    ensures multiset(Labels(r.items)) == multiset(Labels(items))
    ensures entered ==> r.entered
    ensures t2 >= endPos ==> r == RolloutOut(items, lastNew, predNext, entered, t2)
    ensures t2 < endPos && AllEqual(SortAndMarkEquality(items, cfg.historyLength)) ==>
              r == RolloutOut(SortAndMarkEquality(items, cfg.historyLength), lastNew, predNext, entered, t2)
    ensures r.entered <==> entered || (t2 < endPos && !AllEqual(SortAndMarkEquality(items, cfg.historyLength)))
    ensures !r.entered ==> multiset(Unmark(r.items)) == multiset(Unmark(items))
    ensures !r.entered ==> r.predNext == predNext && r.lastNew == lastNew
    ensures t + 1 < t2 ==> r.predNext == predNext
    ensures t2 <= r.reached && (t2 < endPos ==> r.reached <= endPos)
    ensures r.reached < endPos ==> AllEqual(r.items)
    ensures r.reached == t2 <==> t2 >= endPos || AllEqual(SortAndMarkEquality(items, cfg.historyLength))
    decreases endPos - t2
  {
    if t2 >= endPos then RolloutOut(items, lastNew, predNext, entered, t2)
    else
      var g := gamma * (SequenceGamma as real);
      var marked := SortAndMarkEquality(items, cfg.historyLength);
      if AllEqual(marked) then RolloutOut(marked, lastNew, predNext, entered, t2)
      else
        var step := Step(t, t2, tr.policies[t2], tr.truth[t2], tr.weights[t2], g, predT);
        var out := UpdateItems(learner, step, marked, 0, lastNew, predNext, cfg.historyLength);
        UpdateItemsKeepsPrediction(learner, step, marked, 0, lastNew, predNext, cfg.historyLength);
        Rollout(learner, cfg, tr, t, predT, out.items, t2 + 1, endPos, g, out.lastNew, out.predNext, true)
  }

  /** The realised prediction for t+1 a rollout leaves behind is the one its first step
      recovers (lines 860-873): later steps never match. */
  lemma RolloutFirstStep(learner: Learner, cfg: Config, tr: Trajectory, t: nat, predT: nat,
                         items: seq<HistoryItem>, t2: nat, endPos: nat, gamma: real,
                         lastNew: nat, predNext: nat, entered: bool)
    requires ValidConfig(cfg) && ValidTrajectory(tr) && endPos <= |tr.truth|
    requires |items| == cfg.k && Shaped(items, cfg.historyLength)
    requires t2 == t + 1 && t2 < endPos && !AllEqual(SortAndMarkEquality(items, cfg.historyLength))
    ensures Rollout(learner, cfg, tr, t, predT, items, t2, endPos, gamma, lastNew, predNext, entered).predNext
            == UpdateItems(learner, Step(t, t2, tr.policies[t2], tr.truth[t2], tr.weights[t2],
                                         gamma * (SequenceGamma as real), predT),
                           SortAndMarkEquality(items, cfg.historyLength), 0, lastNew, predNext,
                           cfg.historyLength).predNext
  {
    var g := gamma * (SequenceGamma as real);
    var marked := SortAndMarkEquality(items, cfg.historyLength);
    var step := Step(t, t2, tr.policies[t2], tr.truth[t2], tr.weights[t2], g, predT);
    var out := UpdateItems(learner, step, marked, 0, lastNew, predNext, cfg.historyLength);
    assert Rollout(learner, cfg, tr, t, predT, items, t2, endPos, gamma, lastNew, predNext, entered)
           == Rollout(learner, cfg, tr, t, predT, out.items, t2 + 1, endPos, g, out.lastNew, out.predNext, true);
  }

  /** The smallest candidate loss, scanning in cache order. */
  function MinLoss(items: seq<HistoryItem>): (m: real)
    requires |items| > 0
    ensures forall i :: 0 <= i < |items| ==> m <= items[i].loss
    ensures exists i :: 0 <= i < |items| && m == items[i].loss
    decreases |items|
  {
    if |items| == 1 then items[0].loss
    else
      var m := MinLoss(items[..|items| - 1]);
      var last := items[|items| - 1].loss;
      if last < m then last else m
  }

  /** The scan for the smallest candidate loss. */
  method SmallestLoss(items: seq<HistoryItem>) returns (m: real)
    requires |items| > 0
    ensures m == MinLoss(items)
    ensures forall i :: 0 <= i < |items| ==> m <= items[i].loss
    ensures exists i :: 0 <= i < |items| && m == items[i].loss
  {
    m := items[0].loss;
    var i := 1;
    while i < |items|
      invariant 1 <= i <= |items|
      invariant m == MinLoss(items[..i])
    {
      assert items[..i + 1][..i] == items[..i];
      if items[i].loss < m {
        m := items[i].loss;
      }
      i := i + 1;
    }
    assert items[..i] == items;
  }

  /** A cost vector over k classes: non-negative with at least one zero entry. */
  predicate ValidCosts(costs: seq<real>, k: nat)
  {
    && |costs| == k
    && (forall j :: 0 <= j < k ==> costs[j] >= 0.0)
    && (exists j :: 0 <= j < k && costs[j] == 0.0)
  }

  /** The cost vector of one position: the entry of each candidate's original label is its
      loss minus the smallest loss. The previous vector's entries are all overwritten. */
  method BuildCostVector(items: seq<HistoryItem>, previous: seq<real>) returns (costs: seq<real>)
    requires |items| > 0 && |previous| == |items| && LabelPerm(items, |items|)
    ensures ValidCosts(costs, |items|)
    ensures forall i :: 0 <= i < |items| ==> costs[items[i].originalLabel] == items[i].loss - MinLoss(items)
  {
    var k := |items|;
    var minLoss := SmallestLoss(items);
    LabelPermFacts(items, k);
    costs := previous;
    var i := 0;
    while i < k
      invariant 0 <= i <= k && |costs| == k
      invariant forall j :: 0 <= j < i ==> costs[items[j].originalLabel] == items[j].loss - minLoss
    {
      costs := costs[items[i].originalLabel := items[i].loss - minLoss];
      i := i + 1;
    }
    forall l | 0 <= l < k
      ensures costs[l] >= 0.0
    {
      assert l in Labels(items);
      var j :| 0 <= j < k && Labels(items)[j] == l;
    }
    var best :| 0 <= best < k && minLoss == items[best].loss;
    assert costs[items[best].originalLabel] == 0.0;
  }

  /** The costs when no rollout happens and the truth is a valid class: zero for the true
      class and the example's weight for every other class. */
  function OneStepCosts(k: nat, truth: nat, weight: real): (c: seq<real>)
    ensures |c| == k
  {
    seq(k, j requires 0 <= j < k => if j + 1 == truth then 0.0 else weight)
  }

  /** One training example: the position, the history window it is shown, its cost vector,
      and the policy whose weights it trains. */
  datatype TrainingExample = TrainingExample(position: nat, history: History, costs: seq<real>, policy: nat)

  lemma SeedCosts(items: seq<HistoryItem>, costs: seq<real>, k: nat, length: nat, truth: nat, weight: real)
    requires length >= 1 && 1 <= truth <= k && weight >= 0.0
    requires items == SeedCandidates(k, length, truth, weight)
    requires |costs| == k
    requires forall i :: 0 <= i < k ==> costs[items[i].originalLabel] == items[i].loss - MinLoss(items)
    ensures costs == OneStepCosts(k, truth, weight)
  {
    assert items[truth - 1].loss == 0.0;
    var m := MinLoss(items);
    assert m == 0.0;
    forall i | 0 <= i < k
      ensures costs[i] == OneStepCosts(k, truth, weight)[i]
    {
      assert items[i].originalLabel == i;
    }
  }

  /** Changing a sequence only from index `t` on keeps every prefix up to `t`. */
  lemma PrefixesKept(a: seq<nat>, b: seq<nat>, t: nat)
    requires |a| == |b| && t <= |a|
    requires forall i :: 0 <= i < t ==> a[i] == b[i]
    ensures forall i :: 0 <= i <= t ==> a[..i] == b[..i]
  {
  }

  /** The repair of a realised prediction after a rollout that never met it (lines 877-880):
      a valid class is kept and anything else becomes class 1. */
  function Repaired(p: nat, k: nat): (r: nat)
    requires k >= 1
    ensures 1 <= r <= k
    ensures 1 <= p <= k ==> r == p
    ensures !(1 <= p <= k) ==> r == 1
  {
    if p <= 0 || p > k then 1 else p
  }

  /** A step that starts at the first candidate never reads the last fresh index passed in:
      the first candidate is never a duplicate, so it is simulated and becomes the last fresh
      one before any duplicate looks (lines 343 and 861). */
  lemma UpdateItemsFromStart(learner: Learner, st: Step, items: seq<HistoryItem>, a: nat, b: nat,
                             predNext: nat, length: nat)
    requires StepReady(items, 0, a, length) && 0 < |items|
    ensures UpdateItems(learner, st, items, 0, a, predNext, length)
            == UpdateItems(learner, st, items, 0, b, predNext, length)
  {
    assert StepAt(learner, st, items, 0, a, predNext, length) == StepAt(learner, st, items, 0, b, predNext, length);
  }

  /** The first rollout step at position `t`: step t+1 on the freshly seeded candidates,
      sorted and marked. */
  function FirstStep(learner: Learner, cfg: Config, tr: Trajectory, t: nat, predT: nat, predNext: nat): StepOut
    requires ValidConfig(cfg) && ValidTrajectory(tr) && t + 1 < |tr.truth|
  {
    var items := SeedCandidates(cfg.k, cfg.historyLength, tr.truth[t], tr.weights[t]);
    UpdateItems(learner, Step(t, t + 1, tr.policies[t + 1], tr.truth[t + 1], tr.weights[t + 1],
                              1.0 * (SequenceGamma as real), predT),
                SortAndMarkEquality(items, cfg.historyLength), 0, 0, predNext, cfg.historyLength)
  }

  /** The seeded candidates all end in different labels, so after sorting and marking they are
      all duplicates exactly when there is a single class. */
  lemma SeedsAllEqualIffOneClass(k: nat, length: nat, truth: nat, weight: real)
    requires length >= 1
    ensures AllEqual(SortAndMarkEquality(SeedCandidates(k, length, truth, weight), length)) <==> k <= 1
  {
    var items := SeedCandidates(k, length, truth, weight);
    AllEqualIffOneKey(items, length);
    if k >= 2 {
      assert Key(items[0]) == 1 && Key(items[1]) == 2;
    }
  }

  /** A candidate holding the all-zero window that ends in its own label. */
  predicate SeededWindow(it: HistoryItem, length: nat)
    requires length >= 1
  {
    it.predictions == Clear(length - 1) + [it.originalLabel + 1]
  }

  /** The seeded candidates after sorting and marking: still one per label, none marked, and
      each holds the all-zero window ending in its own label. */
  lemma SortedSeeds(k: nat, length: nat, truth: nat, weight: real)
    requires length >= 1
    ensures var marked := SortAndMarkEquality(SeedCandidates(k, length, truth, weight), length);
            && LabelPerm(marked, k)
            && forall j :: 0 <= j < k ==> SeededWindow(marked[j], length) && !marked[j].same
  {
    var items := SeedCandidates(k, length, truth, weight);
    var marked := SortAndMarkEquality(items, length);
    LabelPermFromMultiset(marked, k);
    LabelPermFacts(marked, k);
    forall j | 0 <= j < k
      ensures SeededWindow(marked[j], length)
    {
      SortedSeedWindow(k, length, truth, weight, j);
    }
    forall j | 0 < j < k
      ensures !marked[j].same
    {
      assert Key(marked[j]) == marked[j].originalLabel + 1;
      assert Key(marked[j - 1]) == marked[j - 1].originalLabel + 1;
    }
  }

  /** Sorting moves whole seeded candidates, so each keeps the window of its own label. */
  lemma SortedSeedWindow(k: nat, length: nat, truth: nat, weight: real, j: nat)
    requires length >= 1 && j < k
    ensures SeededWindow(SortAndMarkEquality(SeedCandidates(k, length, truth, weight), length)[j], length)
  {
    var items := SeedCandidates(k, length, truth, weight);
    var marked := SortAndMarkEquality(items, length);
    SortAndMarkMember(items, length, j);
    var a :| 0 <= a < k && marked[j].(same := false) == items[a].(same := false);
    assert items[a].originalLabel == a;
  }

  /** A first step over one unmarked candidate per label, each on the all-zero window ending in
      its label: the candidate of label `predT` is the only one on the realised path. */
  lemma RecoveredFromSeeds(learner: Learner, st: Step, marked: seq<HistoryItem>, k: nat, length: nat, predNext: nat)
    requires length >= 1 && Shaped(marked, length) && LabelPerm(marked, k)
    requires forall j :: 0 <= j < k ==> SeededWindow(marked[j], length) && !marked[j].same
    requires st.t2 == st.t + 1
    ensures UpdateItems(learner, st, marked, 0, 0, predNext, length).predNext
            == if 1 <= st.predT <= k
               then Predict(learner, st.t2, Clear(length - 1) + [st.predT], st.policy, st.truth)
               else predNext
  {
    if 1 <= st.predT <= k {
      RecoveredMatch(learner, st, marked, k, length, predNext);
    } else {
      forall j | 0 <= j < k
        ensures !Matches(st, marked[j])
      {
        assert SeededWindow(marked[j], length);
      }
      UpdateItemsKeepsPrediction(learner, st, marked, 0, 0, predNext, length);
    }
  }

  /** Among seeded candidates, the one branched on a valid proposal is on the realised path,
      and no later candidate is. */
  lemma SeededMatch(st: Step, marked: seq<HistoryItem>, k: nat, length: nat) returns (j: nat)
    requires length >= 1 && Shaped(marked, length) && LabelPerm(marked, k)
    requires forall j :: 0 <= j < k ==> SeededWindow(marked[j], length) && !marked[j].same
    requires st.t2 == st.t + 1 && 1 <= st.predT <= k
    ensures j < k && Matches(st, marked[j]) && NoMatchFrom(st, marked, j + 1)
    ensures marked[j].predictions == Clear(length - 1) + [st.predT] && !marked[j].same
  {
    LabelPermFacts(marked, k);
    assert st.predT - 1 in Labels(marked);
    j :| 0 <= j < k && Labels(marked)[j] == st.predT - 1;
    assert SeededWindow(marked[j], length);
    forall j' | j + 1 <= j' < k
      ensures !Matches(st, marked[j'])
    {
      assert SeededWindow(marked[j'], length);
      assert marked[j'].originalLabel != marked[j].originalLabel;
    }
  }

  /** The matching case of `RecoveredFromSeeds`. */
  lemma RecoveredMatch(learner: Learner, st: Step, marked: seq<HistoryItem>, k: nat, length: nat, predNext: nat)
    requires length >= 1 && Shaped(marked, length) && LabelPerm(marked, k)
    requires forall j :: 0 <= j < k ==> SeededWindow(marked[j], length) && !marked[j].same
    requires st.t2 == st.t + 1 && 1 <= st.predT <= k
    ensures UpdateItems(learner, st, marked, 0, 0, predNext, length).predNext
            == Predict(learner, st.t2, Clear(length - 1) + [st.predT], st.policy, st.truth)
  {
    var j := SeededMatch(st, marked, k, length);
    var r := UpdateItems(learner, st, marked, 0, 0, predNext, length);
    UpdateItemsRecovers(learner, st, marked, 0, 0, predNext, length);
    UpdateItemsAdvancesFresh(learner, st, marked, 0, 0, predNext, length);
    assert r.items[j].predictions
           == Append(marked[j].predictions, Predict(learner, st.t2, marked[j].predictions, st.policy, st.truth));
  }

  /** What the first rollout step recovers (lines 855-873): when the proposal `predT` is a
      valid class, the candidate branched on it is the one on the realised path, and the
      prediction for t+1 becomes its policy's answer on that candidate's window, all zeros
      ending in `predT`; otherwise no candidate matches and `predNext` is kept. */
  lemma FirstStepRecovers(learner: Learner, cfg: Config, tr: Trajectory, t: nat, predT: nat, predNext: nat)
    requires ValidConfig(cfg) && ValidTrajectory(tr) && t + 1 < |tr.truth|
    ensures FirstStep(learner, cfg, tr, t, predT, predNext).predNext
            == if 1 <= predT <= cfg.k
               then Predict(learner, t + 1, Clear(cfg.historyLength - 1) + [predT], tr.policies[t + 1], tr.truth[t + 1])
               else predNext
  {
    var L := cfg.historyLength;
    var marked := SortAndMarkEquality(SeedCandidates(cfg.k, L, tr.truth[t], tr.weights[t]), L);
    var st := Step(t, t + 1, tr.policies[t + 1], tr.truth[t + 1], tr.weights[t + 1], 1.0 * (SequenceGamma as real), predT);
    SortedSeeds(cfg.k, L, tr.truth[t], tr.weights[t]);
    RecoveredFromSeeds(learner, st, marked, cfg.k, L, predNext);
  }

  /** The rollout of position `t` (lines 806-875): seed one candidate per label, cut the
      horizon `endPos`, and roll out from t+1 on. The candidates keep one label each; the
      rollout runs to the horizon unless the cache becomes all duplicates first, and it is
      entered exactly when the horizon lies past t+1 and there are at least two classes; once
      entered, the realised prediction for t+1 is the one the first step recovered. */
  method RollOutPosition(cfg: Config, learner: Learner, tr: Trajectory, t: nat, predSeq: seq<nat>,
                         lastNew: nat)
    returns (ro: RolloutOut, endPos: nat)
    requires ValidConfig(cfg) && ValidTrajectory(tr) && t < |tr.truth| && |predSeq| == |tr.truth|
    ensures LabelPerm(ro.items, cfg.k)
    ensures t <= endPos <= Min(|tr.truth|, t + 1 + cfg.rollout)
    ensures AllOptimal(tr.policies) ==> endPos == t + 1
    ensures !AllOptimal(tr.policies) ==> (endPos > t ==> tr.policies[endPos - 1] >= 0)
    ensures !AllOptimal(tr.policies) ==>
              forall p :: endPos <= p < Min(|tr.truth|, t + 1 + cfg.rollout) ==> tr.policies[p] < 0
    ensures t + 1 <= ro.reached && (t + 1 < endPos ==> ro.reached <= endPos)
    ensures ro.reached < endPos ==> AllEqual(ro.items)
    ensures ro.entered <==> t + 1 < ro.reached
    ensures ro.entered <==> t + 1 < endPos && 2 <= cfg.k
    ensures ro.entered ==> t + 1 < |predSeq|
    ensures ro.entered ==> ro.predNext == FirstStep(learner, cfg, tr, t, predSeq[t], predSeq[t + 1]).predNext
    ensures !ro.entered ==> ro.lastNew == lastNew && (t + 1 < |predSeq| ==> ro.predNext == predSeq[t + 1])
    ensures AllOptimal(tr.policies) ==>
              !ro.entered && ro.items == SeedCandidates(cfg.k, cfg.historyLength, tr.truth[t], tr.weights[t])
  {
    var n := |tr.truth|;
    var items := SeedCandidates(cfg.k, cfg.historyLength, tr.truth[t], tr.weights[t]);
    endPos := RolloutHorizon(tr.policies, t, cfg.rollout);
    var predNext := if t + 1 < n then predSeq[t + 1] else 0;
    ro := Rollout(learner, cfg, tr, t, predSeq[t], items, t + 1, endPos, 1.0, lastNew, predNext, false);
    LabelPermFromMultiset(ro.items, cfg.k);
    SeedsAllEqualIffOneClass(cfg.k, cfg.historyLength, tr.truth[t], tr.weights[t]);
    if ro.entered {
      RolloutFirstStep(learner, cfg, tr, t, predSeq[t], items, t + 1, endPos, 1.0, lastNew, predNext, false);
      var marked := SortAndMarkEquality(items, cfg.historyLength);
      var step := Step(t, t + 1, tr.policies[t + 1], tr.truth[t + 1], tr.weights[t + 1],
                       1.0 * (SequenceGamma as real), predSeq[t]);
      UpdateItemsFromStart(learner, step, marked, lastNew, 0, predNext, cfg.historyLength);
    }
  }

  /** The cost vector of position `t` from its rolled-out candidates (lines 883-890); when
      nothing was rolled out from the seeded candidates it is the one-step cost. */
  method PositionCosts(cfg: Config, tr: Trajectory, t: nat, items: seq<HistoryItem>, previous: seq<real>)
    returns (costs: seq<real>)
    requires ValidConfig(cfg) && ValidTrajectory(tr) && t < |tr.truth|
    requires LabelPerm(items, cfg.k) && |previous| == cfg.k
    requires AllOptimal(tr.policies) ==> items == SeedCandidates(cfg.k, cfg.historyLength, tr.truth[t], tr.weights[t])
    ensures ValidCosts(costs, cfg.k)
    ensures forall i :: 0 <= i < cfg.k ==> costs[items[i].originalLabel] == items[i].loss - MinLoss(items)
    ensures OneStepCase(cfg, tr, t) ==> costs == OneStepCosts(cfg.k, tr.truth[t], tr.weights[t])
  {
    costs := BuildCostVector(items, previous);
    if AllOptimal(tr.policies) && 1 <= tr.truth[t] <= cfg.k && tr.weights[t] >= 0.0 {
      SeedCosts(items, costs, cfg.k, cfg.historyLength, tr.truth[t], tr.weights[t]);
    }
  }

  /** The work at position `t` (lines 806-890): the rollout, the repair of the realised
      prediction when the rollout ran but never met it, and the cost vector. Only the realised
      predictions at t and t+1 may change: t only by the repair, t+1 only through the first
      rollout step, and nothing is rolled out when every policy is the oracle. */
  method TrainPosition(cfg: Config, learner: Learner, tr: Trajectory, t: nat, predSeq: seq<nat>,
                       lastNew: nat, previous: seq<real>)
    returns (costs: seq<real>, predSeq': seq<nat>, lastNew': nat, entered: bool)
    requires ValidConfig(cfg) && ValidTrajectory(tr) && t < |tr.truth|
    requires |predSeq| == |tr.truth| && |previous| == cfg.k
    ensures ValidCosts(costs, cfg.k)
    ensures |predSeq'| == |predSeq|
    ensures forall i :: 0 <= i < |predSeq| && i != t && i != t + 1 ==> predSeq'[i] == predSeq[i]
    ensures entered ==> predSeq'[t] == Repaired(predSeq[t], cfg.k)
    ensures !entered ==> predSeq'[t] == predSeq[t]
    ensures entered ==> t + 1 < |predSeq|
    ensures entered ==>
              predSeq'[t + 1] == FirstStep(learner, cfg, tr, t, predSeq[t], predSeq[t + 1]).predNext
    ensures !entered ==> lastNew' == lastNew && (t + 1 < |predSeq| ==> predSeq'[t + 1] == predSeq[t + 1])
    ensures entered ==> 2 <= cfg.k
    ensures AllOptimal(tr.policies) ==> !entered
    ensures OneStepCase(cfg, tr, t) ==> costs == OneStepCosts(cfg.k, tr.truth[t], tr.weights[t])
  {
    var n := |tr.truth|;
    var ro, endPos := RollOutPosition(cfg, learner, tr, t, predSeq, lastNew);
    lastNew', entered := ro.lastNew, ro.entered;
    predSeq' := predSeq;
    if t + 1 < n {
      predSeq' := predSeq'[t + 1 := ro.predNext];
    }
    if entered && (predSeq'[t] <= 0 || predSeq'[t] > cfg.k) {
      predSeq' := predSeq'[t := 1];  // reported: the realised path was not found
    }
    costs := PositionCosts(cfg, tr, t, ro.items, previous);
  }

  /** Positions whose cost vector is the one-step cost: nothing is rolled out because every
      policy is the oracle, and the truth is a valid class with a non-negative weight. */
  predicate OneStepCase(cfg: Config, tr: Trajectory, t: nat)
    requires ValidTrajectory(tr) && t < |tr.truth|
  {
    AllOptimal(tr.policies) && 1 <= tr.truth[t] <= cfg.k && tr.weights[t] >= 0.0
  }

  /** The examples emitted for positions 0 .. t-1. */
  predicate EmittedUpTo(cfg: Config, currentPolicy: nat, tr: Trajectory, emitted: seq<TrainingExample>,
                        predSeq: seq<nat>, t: nat)
    requires ValidTrajectory(tr) && t <= |predSeq| && t <= |tr.truth|
  {
    && |emitted| == t
    && forall i :: 0 <= i < t ==>
         && emitted[i].position == i
         && emitted[i].policy == currentPolicy
         && ValidCosts(emitted[i].costs, cfg.k)
         && emitted[i].history == AppendAll(Clear(cfg.historyLength), predSeq[..i])
         && (OneStepCase(cfg, tr, i) ==> emitted[i].costs == OneStepCosts(cfg.k, tr.truth[i], tr.weights[i]))
  }

  /** A realised prediction as it stands after its position is done: repaired when that
      position's rollout ran. */
  function Settled(rolledOut: bool, p: nat, k: nat): (r: nat)
    requires k >= 1
    ensures rolledOut ==> r == Repaired(p, k)
    ensures !rolledOut ==> r == p
  {
    if rolledOut then Repaired(p, k) else p
  }

  /** The prediction of position `|prefix|` under its behaviour policy from the window of the
      realised predictions before it (line 801 for position 0, line 898 after it). */
  function NextPrediction(learner: Learner, cfg: Config, tr: Trajectory, prefix: seq<nat>): nat
    requires ValidTrajectory(tr) && |prefix| < |tr.truth|
  {
    var p := |prefix|;
    Predict(learner, p, AppendAll(Clear(cfg.historyLength), prefix), tr.policies[p], tr.truth[p])
  }

  /** What position `i` proposes as its realised prediction before its own rollout. After a
      rolled-out position it is what that rollout's first step recovered (line 872), starting
      from the behaviour pass's prediction `preds[i]`. Otherwise it is its behaviour policy's
      prediction on the window of the realised predictions before it (line 801 for position 0,
      line 898 after it). `proposed[i - 1]` is the previous position's own proposal, the value
      the first step is matched against before that position's repair. */
  function Proposal(learner: Learner, cfg: Config, tr: Trajectory, preds: seq<nat>, predSeq: seq<nat>,
                    proposed: seq<nat>, rolled: seq<bool>, i: nat): nat
    requires ValidConfig(cfg) && ValidTrajectory(tr) && |preds| == |tr.truth| && |predSeq| == |tr.truth|
    requires i < |tr.truth| && i <= |proposed| && i <= |rolled|
  {
    if 0 < i && rolled[i - 1] then FirstStep(learner, cfg, tr, i - 1, proposed[i - 1], preds[i]).predNext
    else NextPrediction(learner, cfg, tr, predSeq[..i])
  }

  /** The realised predictions of positions 0 .. t-1: each position proposed what `Proposal`
      says, and its realised prediction is that proposal, repaired when its rollout ran. */
  predicate RealisedUpTo(learner: Learner, cfg: Config, tr: Trajectory, preds: seq<nat>, predSeq: seq<nat>,
                         proposed: seq<nat>, rolled: seq<bool>, t: nat)
    requires ValidConfig(cfg) && ValidTrajectory(tr) && |preds| == |tr.truth| && |predSeq| == |tr.truth|
    requires t <= |tr.truth| && t <= |proposed| && t <= |rolled|
  {
    forall i :: 0 <= i < t ==>
      && proposed[i] == Proposal(learner, cfg, tr, preds, predSeq, proposed, rolled, i)
      && predSeq[i] == Settled(rolled[i], proposed[i], cfg.k)
  }

  /** A proposal reads only the realised predictions before it and the previous position's
      proposal and rollout. */
  lemma ProposalFrame(learner: Learner, cfg: Config, tr: Trajectory, preds: seq<nat>, a: seq<nat>, b: seq<nat>,
                      proposedA: seq<nat>, proposedB: seq<nat>, rolledA: seq<bool>, rolledB: seq<bool>, i: nat)
    requires ValidConfig(cfg) && ValidTrajectory(tr) && |preds| == |tr.truth|
    requires |a| == |tr.truth| && |b| == |tr.truth| && i < |tr.truth|
    requires i <= |proposedA| && i <= |proposedB| && i <= |rolledA| && i <= |rolledB|
    requires a[..i] == b[..i]
    requires 0 < i ==> proposedA[i - 1] == proposedB[i - 1] && rolledA[i - 1] == rolledB[i - 1]
    ensures Proposal(learner, cfg, tr, preds, a, proposedA, rolledA, i)
            == Proposal(learner, cfg, tr, preds, b, proposedB, rolledB, i)
  {
  }

  /** Finishing position `t`: the realised predictions before it stay, and its proposal is
      recorded and settled. */
  lemma RealisedStep(learner: Learner, cfg: Config, tr: Trajectory, preds: seq<nat>, before: seq<nat>,
                     after: seq<nat>, proposed: seq<nat>, rolled: seq<bool>, t: nat, rolledOut: bool)
    requires ValidConfig(cfg) && ValidTrajectory(tr) && |preds| == |tr.truth|
    requires |before| == |tr.truth| && |after| == |before|
    requires |proposed| == t && |rolled| == t && t < |before|
    requires RealisedUpTo(learner, cfg, tr, preds, before, proposed, rolled, t)
    requires before[t] == Proposal(learner, cfg, tr, preds, before, proposed, rolled, t)
    requires forall i :: 0 <= i < t ==> after[i] == before[i]
    requires after[t] == Settled(rolledOut, before[t], cfg.k)
    ensures RealisedUpTo(learner, cfg, tr, preds, after, proposed + [before[t]], rolled + [rolledOut], t + 1)
  {
    var proposed', rolled' := proposed + [before[t]], rolled + [rolledOut];
    forall i | 0 <= i <= t
      ensures proposed'[i] == Proposal(learner, cfg, tr, preds, after, proposed', rolled', i)
      ensures after[i] == Settled(rolled'[i], proposed'[i], cfg.k)
    {
      assert after[..i] == before[..i];
      ProposalFrame(learner, cfg, tr, preds, after, before, proposed', proposed, rolled', rolled, i);
      if i < t {
        assert proposed'[i] == proposed[i] && rolled'[i] == rolled[i];
      }
    }
  }

  /** The prediction position `t` leaves at t+1 is the proposal of t+1: the first step's
      recovery from `proposal` when t was rolled out, its behaviour policy's prediction on the
      realised window otherwise. */
  lemma ProposalStep(learner: Learner, cfg: Config, tr: Trajectory, preds: seq<nat>, after: seq<nat>,
                     proposed: seq<nat>, rolled: seq<bool>, t: nat, proposal: nat, rolledOut: bool)
    requires ValidConfig(cfg) && ValidTrajectory(tr) && |preds| == |tr.truth| && |after| == |tr.truth|
    requires |proposed| == t && |rolled| == t && t + 1 < |after|
    requires rolledOut ==> after[t + 1] == FirstStep(learner, cfg, tr, t, proposal, preds[t + 1]).predNext
    requires !rolledOut ==> after[t + 1] == NextPrediction(learner, cfg, tr, after[..t + 1])
    ensures after[t + 1] == Proposal(learner, cfg, tr, preds, after, proposed + [proposal], rolled + [rolledOut], t + 1)
  {
    assert (proposed + [proposal])[t] == proposal && (rolled + [rolledOut])[t] == rolledOut;
  }

  /** Emitting the example of position `t` after the realised predictions before it stayed. */
  lemma EmittedStep(cfg: Config, currentPolicy: nat, tr: Trajectory, emitted: seq<TrainingExample>,
                    before: seq<nat>, after: seq<nat>, t: nat, ex: TrainingExample)
    requires ValidTrajectory(tr) && |before| == |tr.truth| && |after| == |before| && t < |before|
    requires EmittedUpTo(cfg, currentPolicy, tr, emitted, before, t)
    requires forall i :: 0 <= i < t ==> after[i] == before[i]
    requires ex.position == t && ex.policy == currentPolicy && ValidCosts(ex.costs, cfg.k)
    requires ex.history == AppendAll(Clear(cfg.historyLength), after[..t])
    requires OneStepCase(cfg, tr, t) ==> ex.costs == OneStepCosts(cfg.k, tr.truth[t], tr.weights[t])
    ensures EmittedUpTo(cfg, currentPolicy, tr, emitted + [ex], after, t + 1)
  {
    forall i | 0 <= i < t
      ensures after[..i] == before[..i] && (emitted + [ex])[i] == emitted[i]
    {
    }
  }

  /** The window after appending the prediction of position `t`. */
  lemma WindowStep(length: nat, a: seq<nat>, b: seq<nat>, t: nat)
    requires t < |a| && t < |b| && forall i :: 0 <= i <= t ==> a[i] == b[i]
    ensures a[..t] == b[..t]
    ensures AppendAll(Clear(length), b[..t + 1]) == Append(AppendAll(Clear(length), a[..t]), a[t])
  {
    assert b[..t + 1][..t] == b[..t] == a[..t];
  }

  /** Position `t` as the training loop sees it (lines 806-898): the work of TrainPosition,
      then, when nothing was rolled out, the prediction for t+1 from the window that now ends
      with t's realised prediction. */
  method SettlePosition(cfg: Config, learner: Learner, tr: Trajectory, t: nat, predSeq: seq<nat>,
                        lastNew: nat, previous: seq<real>)
    returns (costs: seq<real>, predSeq': seq<nat>, lastNew': nat, entered: bool)
    requires ValidConfig(cfg) && ValidTrajectory(tr) && t < |tr.truth|
    requires |predSeq| == |tr.truth| && |previous| == cfg.k
    ensures ValidCosts(costs, cfg.k)
    ensures |predSeq'| == |predSeq|
    ensures forall i :: 0 <= i < |predSeq| && i != t && i != t + 1 ==> predSeq'[i] == predSeq[i]
    ensures predSeq'[t] == Settled(entered, predSeq[t], cfg.k)
    ensures entered ==> t + 1 < |predSeq| && 2 <= cfg.k
    ensures entered ==>
              predSeq'[t + 1] == FirstStep(learner, cfg, tr, t, predSeq[t], predSeq[t + 1]).predNext
    ensures !entered && t + 1 < |predSeq| ==>
              predSeq'[t + 1] == NextPrediction(learner, cfg, tr, predSeq'[..t + 1])
    ensures AllOptimal(tr.policies) ==> !entered
    ensures OneStepCase(cfg, tr, t) ==> costs == OneStepCosts(cfg.k, tr.truth[t], tr.weights[t])
  {
    var settled;
    costs, settled, lastNew', entered := TrainPosition(cfg, learner, tr, t, predSeq, lastNew, previous);
    predSeq' := settled;
    if !entered && t < |predSeq| - 1 {
      var h := AppendAll(Clear(cfg.historyLength), settled[..t + 1]);
      predSeq' := settled[t + 1 := Predict(learner, t + 1, h, tr.policies[t + 1], tr.truth[t + 1])];
      assert predSeq'[..t + 1] == settled[..t + 1];
    }
  }

  /** Lines 799-899: one training example per position, in order, with the realised
      predictions each position leaves behind, the proposals they were settled from, and
      whose rollout ran. */
  method EmitExamples(cfg: Config, currentPolicy: nat, learner: Learner, tr: Trajectory, preds: seq<nat>)
    returns (emitted: seq<TrainingExample>, predSeq: seq<nat>, proposed: seq<nat>, rolled: seq<bool>)
    requires ValidConfig(cfg) && ValidTrajectory(tr) && |preds| == |tr.truth|
    ensures |predSeq| == |tr.truth| && |proposed| == |tr.truth| && |rolled| == |tr.truth|
    ensures EmittedUpTo(cfg, currentPolicy, tr, emitted, predSeq, |tr.truth|)
    ensures RealisedUpTo(learner, cfg, tr, preds, predSeq, proposed, rolled, |tr.truth|)
    ensures forall t :: 0 <= t < |rolled| && rolled[t] ==> 2 <= cfg.k
    ensures AllOptimal(tr.policies) ==> forall t :: 0 <= t < |rolled| ==> !rolled[t]
  {
    var n := |tr.truth|;
    var L := cfg.historyLength;
    var h := Clear(L);
    predSeq := preds[0 := Predict(learner, 0, h, tr.policies[0], tr.truth[0])];
    var lastNew: nat := SizeMax;
    var lossVector := seq(cfg.k, _ => 0.0);
    emitted, proposed, rolled := [], [], [];
    var t := 0;
    while t < n
      invariant 0 <= t <= n && |predSeq| == n && |lossVector| == cfg.k && |proposed| == t && |rolled| == t
      invariant h == AppendAll(Clear(L), predSeq[..t])
      invariant EmittedUpTo(cfg, currentPolicy, tr, emitted, predSeq, t)
      invariant RealisedUpTo(learner, cfg, tr, preds, predSeq, proposed, rolled, t)
      invariant t < n ==> predSeq[t] == Proposal(learner, cfg, tr, preds, predSeq, proposed, rolled, t)
      invariant forall i :: t < i < n ==> predSeq[i] == preds[i]
      invariant forall i :: 0 <= i < t && rolled[i] ==> 2 <= cfg.k
      invariant AllOptimal(tr.policies) ==> forall i :: 0 <= i < t ==> !rolled[i]
    {
      var start := predSeq;
      var costs, lastNew', entered;
      costs, predSeq, lastNew', entered := SettlePosition(cfg, learner, tr, t, start, lastNew, lossVector);
      PrefixesKept(start, predSeq, t);
      var ex := TrainingExample(t, h, costs, currentPolicy);
      lastNew, lossVector := lastNew', costs;
      WindowStep(L, predSeq, predSeq, t);
      h := Append(h, predSeq[t]);
      EmittedStep(cfg, currentPolicy, tr, emitted, start, predSeq, t, ex);
      RealisedStep(learner, cfg, tr, preds, start, predSeq, proposed, rolled, t, entered);
      if t + 1 < n {
        ProposalStep(learner, cfg, tr, preds, predSeq, proposed, rolled, t, start[t], entered);
      }
      emitted, proposed, rolled := emitted + [ex], proposed + [start[t]], rolled + [entered];
      t := t + 1;
    }
  }

  /** After a rolled-out position the proposal is the next policy's prediction on the window
      of the rollout candidate it matched: all zeros ending in the previous proposal. When that
      proposal is not a valid class, no candidate matched and the behaviour pass's prediction
      stands. */
  lemma RealisedAfterRollout(learner: Learner, cfg: Config, tr: Trajectory, preds: seq<nat>, predSeq: seq<nat>,
                             proposed: seq<nat>, rolled: seq<bool>, i: nat)
    requires ValidConfig(cfg) && ValidTrajectory(tr) && |preds| == |tr.truth| && |predSeq| == |tr.truth|
    requires |proposed| == |tr.truth| && |rolled| == |tr.truth|
    requires RealisedUpTo(learner, cfg, tr, preds, predSeq, proposed, rolled, |tr.truth|)
    requires 0 < i < |tr.truth| && rolled[i - 1]
    ensures proposed[i] == if 1 <= proposed[i - 1] <= cfg.k
                           then Predict(learner, i, Clear(cfg.historyLength - 1) + [proposed[i - 1]],
                                        tr.policies[i], tr.truth[i])
                           else preds[i]
  {
    assert proposed[i] == Proposal(learner, cfg, tr, preds, predSeq, proposed, rolled, i);
    FirstStepRecovers(learner, cfg, tr, i - 1, proposed[i - 1], preds[i]);
  }

  /** With a one-slot window, the matched candidate's window is the realised window, so the
      recovery after a rolled-out position agrees with predicting afresh. */
  lemma OneSlotRecoveryIsFresh(learner: Learner, cfg: Config, tr: Trajectory, preds: seq<nat>, predSeq: seq<nat>,
                               proposed: seq<nat>, rolled: seq<bool>, i: nat)
    requires ValidConfig(cfg) && ValidTrajectory(tr) && |preds| == |tr.truth| && |predSeq| == |tr.truth|
    requires |proposed| == |tr.truth| && |rolled| == |tr.truth|
    requires RealisedUpTo(learner, cfg, tr, preds, predSeq, proposed, rolled, |tr.truth|)
    requires 0 < i < |tr.truth| && rolled[i - 1]
    requires cfg.historyLength == 1 && 1 <= proposed[i - 1] <= cfg.k
    ensures proposed[i] == NextPrediction(learner, cfg, tr, predSeq[..i])
  {
    RealisedAfterRollout(learner, cfg, tr, preds, predSeq, proposed, rolled, i);
    assert predSeq[i - 1] == Settled(rolled[i - 1], proposed[i - 1], cfg.k) == proposed[i - 1];
    AppendAllForgets(Clear(1), predSeq[..i]);
    assert predSeq[..i][i - 1..] == [proposed[i - 1]] == Clear(0) + [proposed[i - 1]];
  }

  /** When every position is handed to the oracle and nothing is rolled out, the realised
      predictions are the truth. */
  lemma OracleRealisesTruth(learner: Learner, cfg: Config, tr: Trajectory, preds: seq<nat>, predSeq: seq<nat>,
                            proposed: seq<nat>, rolled: seq<bool>)
    requires ValidConfig(cfg) && ValidTrajectory(tr) && |preds| == |tr.truth| && |predSeq| == |tr.truth|
    requires |proposed| == |tr.truth| && |rolled| == |tr.truth|
    requires forall t :: 0 <= t < |tr.policies| ==> tr.policies[t] == Oracle
    requires forall t :: 0 <= t < |rolled| ==> !rolled[t]
    requires RealisedUpTo(learner, cfg, tr, preds, predSeq, proposed, rolled, |tr.truth|)
    ensures predSeq == tr.truth
  {
    forall t | 0 <= t < |tr.truth|
      ensures predSeq[t] == tr.truth[t]
    {
      assert proposed[t] == Proposal(learner, cfg, tr, preds, predSeq, proposed, rolled, t);
    }
  }

  /** `process_next_example_sequence` for a training sequence: the behaviour pass, then one
      cost-sensitive training example per position. */
  method TrainSequence(cfg: Config, currentPolicy: nat, learner: Learner, truth: seq<nat>,
                       weights: seq<real>, behaviourRanks: seq<nat>, oracleRanks: seq<nat>)
    returns (emitted: seq<TrainingExample>, predSeq: seq<nat>, policies: seq<int>, preds: seq<nat>,
             proposed: seq<nat>, rolled: seq<bool>)
    requires ValidConfig(cfg)
    requires |truth| >= 1 && |weights| == |truth| && |behaviourRanks| == |truth|
    requires RanksValid(cfg, currentPolicy, behaviourRanks, oracleRanks)
    ensures |emitted| == |truth| && |predSeq| == |truth| && |policies| == |truth| && |preds| == |truth|
    ensures |proposed| == |truth| && |rolled| == |truth|
    ensures forall t :: 0 <= t < |truth| ==>
              policies[t] == DrawnPolicy(cfg, currentPolicy, behaviourRanks[t], oracleRanks[t])
    ensures preds == LearnerRun(learner, cfg.historyLength, BehaviourDraws(cfg, currentPolicy, behaviourRanks), |truth|)
    ensures forall t :: 0 <= t < |truth| ==>
              && emitted[t].position == t
              && emitted[t].policy == currentPolicy
              && ValidCosts(emitted[t].costs, cfg.k)
              && emitted[t].history == AppendAll(Clear(cfg.historyLength), predSeq[..t])
    ensures RealisedUpTo(learner, cfg, Trajectory(truth, weights, policies), preds, predSeq, proposed, rolled, |truth|)
    ensures forall t :: 0 <= t < |truth| && rolled[t] ==> 2 <= cfg.k
    ensures forall t :: 0 <= t < |truth| && currentPolicy == 0 && 1 <= truth[t] <= cfg.k && weights[t] >= 0.0 ==>
              emitted[t].costs == OneStepCosts(cfg.k, truth[t], weights[t])
    ensures currentPolicy == 0 ==> predSeq == truth
  {
    policies, preds := BehaviourPass(cfg, currentPolicy, learner, behaviourRanks, oracleRanks);
    var tr := Trajectory(truth, weights, policies);
    emitted, predSeq, proposed, rolled := EmitExamples(cfg, currentPolicy, learner, tr, preds);
    if currentPolicy == 0 {
      assert AllOptimal(policies);
      OracleRealisesTruth(learner, cfg, tr, preds, predSeq, proposed, rolled);
    }
  }
}
